=== FILE: README.md ===
# Thread creation and exit in bionic, modelled in Dafny

This project models the sequential decision logic of thread creation and
thread exit in bionic, Android's C library (`libc/bionic/pthread_create.cpp`
and `libc/bionic/pthread_exit.cpp`), and proves what that logic promises.

System calls (`mmap`, `mprotect`, `munmap`, `clone`, `sigaltstack`,
`sched_*`) are events in a trace. The model gets their answers as inputs.
Each trace is folded over a *ledger*: the sets of mapped bytes, writable
bytes and registered threads. Failed calls stay in the trace but change
nothing. `arc4random_uniform` draws are bounded inputs (`UniformDraw`). The
width of `size_t` is chosen by `lp64`: page rounding and the end of a
caller's stack wrap modulo 2^64 or 2^32, and `__builtin_add_overflow`
detects exactly that wrap. Addresses inside a fresh mapping are unbounded naturals.

Modules, in dependency order:

- `Wrappers`: `Option` and the errno-carrying `Result`.
- `Machine`: word width, page rounding with wrap-around, checked addition, and the `arc4random_uniform` contract.
- `Effects`: the `Event` trace, the ledger, `Apply`, and lemmas for splitting traces.
- `ThreadTypes`: `pthread_attr_t`, `ThreadJoinState`, the start routine, and `pthread_internal_t`.
- `Layout`: `__allocate_thread_mapping`, and the carving of the mapping into six regions.
- `Alloc`: `__allocate_thread`.
- `Sched`: `__init_thread`.
- `Create`: `pthread_create` as a progress machine (nothing allocated, allocated, cloned, published).
- `AdditionalStacks`: the alternate signal stack and the shadow call stack offset.
- `Cleanup`: the cleanup-handler stack and the drain loop.
- `ThreadExit`: `pthread_exit`.
- `Lifecycle`: `__pthread_start` joined to creation and exit, and whole-life ledger properties.

Constants that `pthread_internal.h` defines are written out in `Machine` and
`AdditionalStacks`; that header is not part of this model:

- PAGE_SIZE is 4096.
- PTHREAD_GUARD_SIZE is one page.
- SIGNAL_STACK_SIZE is 16 KiB plus one guard page.
- SCS_SIZE is 8 KiB.
- SCS_GUARD_REGION_SIZE is 16 MiB.

`sizeof(pthread_internal_t)`, the static TLS size, the offset of the
bionic_tls struct inside static TLS and `BIONIC_TLS_SIZE` are fields of
`Layout.Platform`. The thread structure is at most one page, and bionic_tls
starts inside static TLS.

The exit comes in two versions (`ThreadExit.ExitVersion`). `AsWritten`
follows `pthread_exit.cpp` line by line. `Corrected` differs in the two
places listed under "## Findings": it unmaps the mapping at `mmap_base`, and
it does not call `__pthread_unmap_tls`. The method `ThreadExit.Exit` and the
whole-life properties use `Corrected`. Each finding has a lemma showing what
`AsWritten` does.

## Model

| member | source | states |
|---|---|---|
| Machine.CheckedAdd | libc/bionic/pthread_create.cpp:236-240 | overflow is reported exactly when the size_t sum wraps below its first operand; otherwise the result is the wrapped sum, which equals the true sum |
| Machine.PageAlign | libc/bionic/pthread_create.cpp:243-245 | `__BIONIC_ALIGN(x, PAGE_SIZE)` evaluated in size_t; what it yields, including the wrap to 0, is stated by `Machine.PageAlignWrap` |
| Machine.PageAlignWrap | libc/bionic/pthread_create.cpp:243-245 | page rounding in size_t comes out below its input exactly when the true round-up overflows; otherwise it is the true round-up |
| Machine.AlignDown16 | libc/bionic/pthread_create.cpp:292 | the stack top is 16-aligned and at most 15 bytes below the unaligned value |
| Layout.GapSize | libc/bionic/pthread_create.cpp:224-232 | the draw is bounded by `max_gap_size` truncated to uint32 (half the stack on LP64, a tenth otherwise), and its page rounding is done in 32 bits; the gap is a page multiple below 2^32, at least the draw and less than a page above it unless that rounding wraps, in which case it is 0; it is at most the rounded bound, and 0 when the bound is below 2 |
| Layout.GapBoundTruncation | libc/bionic/pthread_create.cpp:226-232 | on a 32-bit build the uint32 truncation never changes the bound; on LP64 a stack of 8 GiB gives `max_gap_size` = 2^32, which truncates to 0, so the gap is 0 |
| Layout.MappingSize | libc/bionic/pthread_create.cpp:234-245 | no size exactly when the page-rounded sum of the six regions leaves size_t; otherwise a page multiple that is at least the unaligned sum and at most SIZE_MAX |
| Layout.AllocateThreadMapping | libc/bionic/pthread_create.cpp:219-294 | the mapping is nonzero exactly when the size fits, mmap succeeds and both mprotects succeed; any failure returns the all-zero mapping; an overflowing size makes no call, and a failed mmap is the only call; success returns mmap's address as both base and stack base, the page-aligned size, and a 16-aligned stack top in (stack end − sizeof(pthread_internal_t) − 16, stack end] |
| Layout.CarveLayout | libc/bionic/pthread_create.cpp:234-276 | stack guard, stack, gap, thread page, static TLS and tail guard follow each other in that order, are pairwise disjoint, fill the mapping exactly, and leave at least one guard page at the top; the thread page ends where static TLS starts |
| Layout.MappingFailureNoLeak | libc/bionic/pthread_create.cpp:250-282 | whichever step fails (the mmap or either mprotect), the ledger ends as it was: a partial mapping is unmapped whole |
| Layout.MappingSuccessLedger | libc/bionic/pthread_create.cpp:247-293 | a successful mapping adds exactly the fresh mapping, writable only at the stack and at the thread page plus static TLS, with the registry unchanged |
| Alloc.AllocateThread | libc/bionic/pthread_create.cpp:296-350 | every failure is EAGAIN; a guard size that wraps when rounded makes no call; otherwise the calls are exactly those of `__allocate_thread_mapping(stack_size, rounded guard)` for an allocated stack, or of `__allocate_thread_mapping(0, PTHREAD_GUARD_SIZE)` under a caller's stack, and it succeeds exactly when that mapping does, keeping that mapping; on success the thread structure is one thread page below static TLS, and the flags and scheduling attributes are kept |
| Alloc.Settle | libc/bionic/pthread_create.cpp:312-345 | the attributes, thread page and child stack `__allocate_thread` settles on; stated by `Alloc.AllocatedStack` and `Alloc.CallerStack` |
| Alloc.AllocatedStack | libc/bionic/pthread_create.cpp:301-342 | with an allocated stack, the stack base is the mapping's base, the child starts at the mapping's stack top, and the guard is rounded up to pages; when rounded guard + stack size ≥ sizeof(pthread_internal_t) + 16, the recorded stack size is top − base, in (guard + stack − sizeof(pthread_internal_t) − 16, guard + stack] |
| Alloc.CallerStack | libc/bionic/pthread_create.cpp:315-342 | with a caller's stack, its base, size and guard are kept, and the child starts at base + size (in size_t) |
| Alloc.WrapRoundTrip | libc/bionic/pthread_create.cpp:319-342 | adding the stack size to the base and subtracting the base again, both in size_t, gives the size back even when the addition wraps |
| Alloc.ThreadPageInside | libc/bionic/pthread_create.cpp:273-323 | the thread structure sits at the mapping's base plus the requested guard, the requested stack and the random gap; the thread page, static TLS and a guard page fit below the mapping's end |
| Alloc.ThreadPageAligned | libc/bionic/pthread_create.cpp:273-323 | when the requested stack size is a page multiple (always so under a caller's stack), the thread structure starts on a page boundary |
| Alloc.AllocateThreadLedger | libc/bionic/pthread_create.cpp:296-350 | a failed allocation leaves the ledger unchanged; a successful one adds exactly its fresh mapping, adds writable bytes only inside it, and registers nothing |
| Sched.InitThread | libc/bionic/pthread_create.cpp:160-211 | the join state is DETACHED exactly when the detached flag is set, otherwise NOT_JOINED; the result is never negative; only scheduling calls are made |
| Sched.InitThreadDecision | libc/bionic/pthread_create.cpp:170-210 | a set call is made exactly when the truth table over inherit, explicit, SCHED_RESET_ON_FORK and SCHED_NORMAL asks for one, with the inherited or the attribute's policy and priority; the current policy is queried only when inheriting; the result is the failing call's errno, or 0 |
| Sched.InheritQueryFailureFatal | libc/bionic/pthread_create.cpp:173-181 | a failed sched_getscheduler returns −1, which carries SCHED_RESET_ON_FORK, so when inheriting it always ends in that errno and no set call |
| Sched.SetFailureOnlyFatalOnLp64 | libc/bionic/pthread_create.cpp:198-207 | a failed set is the errno on LP64 and 0 otherwise, with the same calls on both builds |
| Create.Create | libc/bionic/pthread_create.cpp:381-458 | returns 0 exactly when `*thread_out` is written, and exactly when the thread is published; the written handle is the thread's address; a thread cloned but not published is detached and runs `__do_nothing`; a published one runs the caller's routine and is joinable unless the attributes ask for detached |
| Create.Launch | libc/bionic/pthread_create.cpp:400-457 | after allocation the thread carries the settled attributes and its mapping; a clone failure returns clone's errno; a failing `__init_thread` returns that call's own nonzero errno; the stage says how far creation got |
| Create.CreateAllocFailure | libc/bionic/pthread_create.cpp:396-399 | an allocation failure returns EAGAIN before any lock operation or clone, and leaves the ledger unchanged |
| Create.LaunchCloneFailure | libc/bionic/pthread_create.cpp:427-439 | a clone failure releases the lock, then unmaps exactly `(mmap_base, mmap_size)`, and registers nothing |
| Create.CreateCloneFailure | libc/bionic/pthread_create.cpp:396-439 | a clone failure returns clone's errno, the lock is not held, and the ledger is back to its state before creation |
| Create.LaunchInitFailure | libc/bionic/pthread_create.cpp:442-451 | an `__init_thread` failure registers the thread, then releases the lock; `*thread_out` is never written |
| Create.LaunchPublished | libc/bionic/pthread_create.cpp:453-457 | on success the thread is registered, then `*thread_out` is written, then the lock is released |
| Create.LaunchPublishedReleasesLast | libc/bionic/pthread_create.cpp:409-457 | on success the lock is released once, as the very last call, so the child cannot start before the handle is published |
| Create.CreateClonedLedger | libc/bionic/pthread_create.cpp:396-457 | once clone has succeeded, the fresh mapping stays, owned by the thread, and the thread is registered; nothing else changes and the lock is free |
| Create.CreatedThreadPlacement | libc/bionic/pthread_create.cpp:322-345 | the thread handed on lives inside its own nonempty mapping, at least the requested guard above its base, with its page, static TLS and a guard page below its end; it has the attributes `__allocate_thread` settled on and no signal stack or cleanup handlers yet |
| AdditionalStacks.InitAlternateSignalStack | libc/bionic/pthread_create.cpp:107-127 | the thread records a signal stack only when both the mmap and the guard mprotect succeed, and then `sigaltstack` is given the part above the guard page; nothing else in the thread changes |
| AdditionalStacks.AltStackLedger | libc/bionic/pthread_create.cpp:107-127 | a failed setup leaves the ledger unchanged; a successful one maps exactly SIGNAL_STACK_SIZE fresh bytes, writable above the guard page only |
| AdditionalStacks.AlignUpScs | libc/bionic/pthread_create.cpp:136-139 | `align_up` gives the smallest SCS_SIZE multiple at or above its input |
| AdditionalStacks.ShadowCallStack | libc/bionic/pthread_create.cpp:136-145 | the shadow call stack's address in its guard region; its alignment and bounds are stated by `AdditionalStacks.ShadowCallStackPlacement` |
| AdditionalStacks.ShadowCallStackPlacement | libc/bionic/pthread_create.cpp:129-153 | the shadow call stack is SCS_SIZE-aligned, inside its guard region, and has at least one page of the region after it |
| Cleanup.Push | libc/bionic/pthread_exit.cpp:50-56 | the record becomes the top, with the routine, argument and old top stored in it; every other record is unchanged |
| Cleanup.Pop | libc/bionic/pthread_exit.cpp:59-65 | the top becomes the record's predecessor, the records are unchanged, and the record's routine runs exactly when `execute` is nonzero |
| Cleanup.PopUndoesPush | libc/bionic/pthread_exit.cpp:50-65 | popping what was just pushed restores the previous top and runs the pushed routine exactly when asked |
| Cleanup.PushExtendsChain | libc/bionic/pthread_exit.cpp:50-56 | pushing a record not already on the stack extends the linked chain by that record |
| Cleanup.PopShortensChain | libc/bionic/pthread_exit.cpp:59-65 | popping the top of a chain leaves the rest of the chain |
| Cleanup.Drain | libc/bionic/pthread_exit.cpp:82-86 | the drain loop runs every handler on the chain exactly once, top first, and leaves the stack empty |
| Cleanup.PushAllChain | libc/bionic/pthread_exit.cpp:50-56 | pushing onto distinct records builds the chain in reverse order of pushing, each record holding its own routine and argument |
| Cleanup.DrainAfterPushes | libc/bionic/pthread_exit.cpp:50-86 | handlers pushed on an empty stack all run at exit, exactly once each, last pushed first |
| ThreadExit.JoinOnExit | libc/bionic/pthread_exit.cpp:106-109 | the state the exit finds and the state it leaves; that the compare-exchange loop makes exactly this transition is stated by `ThreadExit.ExitJoinCas` |
| ThreadExit.ExitJoinCas | libc/bionic/pthread_exit.cpp:106-109 | however many weak compare-exchanges fail spuriously, the loop reports the state it found and leaves EXITED_NOT_JOINED in place of NOT_JOINED; any other state is left as it was |
| ThreadExit.ReleaseAltStack | libc/bionic/pthread_exit.cpp:94-104 | a signal stack, if present, is disabled first, then unmapped, and the pointer reset to null; without one nothing is called |
| ThreadExit.AltStackReleaseLedger | libc/bionic/pthread_exit.cpp:94-104 | releasing the signal stack unmaps exactly its SIGNAL_STACK_SIZE bytes |
| ThreadExit.AltStackRoundTrip | libc/bionic/pthread_exit.cpp:94-104 | a signal stack set up at thread start and released at exit leaves the ledger as it was, whether or not the setup succeeded |
| ThreadExit.ExitOf | libc/bionic/pthread_exit.cpp:74-140 | given the records of the cleanup chain (in the source's order when they are the chain from `cleanup_stack`), the exit stores the return value, empties the cleanup stack, drops the signal stack, makes the join transition, calls the thread_local destructors first and exits the thread last |
| ThreadExit.Exit | libc/bionic/pthread_exit.cpp:74-140 | the exit, with both loops run, makes exactly the calls and leaves exactly the thread that `ExitOf` describes, as written and corrected alike |
| ThreadExit.ExitOrdering | libc/bionic/pthread_exit.cpp:75-119 | thread_local destructors, then every cleanup handler once, most recent first, then the key destructors; the thread leaves the registry only after those, and does so exactly when it was detached |
| ThreadExit.Teardown | libc/bionic/pthread_exit.cpp:111-139 | the calls after the join transition; their order is stated by `ThreadExit.TeardownUnregisters` and `ThreadExit.ExitOrdering`, their effect by `ThreadExit.TeardownLedger` |
| ThreadExit.TeardownUnregisters | libc/bionic/pthread_exit.cpp:111-139 | after the join transition the thread is removed from the registry only as the second call, right after the tid address is cleared (the first call), and exactly when it was found detached; a thread not found detached clears no tid address |
| ThreadExit.UnmapTls | libc/bionic/pthread_exit.cpp:67-71 | the call to `__pthread_unmap_tls`, made only as written; what it unmaps is stated by `ThreadExit.UnmapTlsLedger` |
| ThreadExit.UnmapTlsLedger | libc/bionic/pthread_exit.cpp:67-71 | `__pthread_unmap_tls` unmaps exactly `BIONIC_TLS_SIZE` bytes from `thread->bionic_tls` plus a guard page on each side when its address is page aligned, and nothing when munmap rejects the unaligned address; it touches nothing else |
| ThreadExit.TeardownLedger | libc/bionic/pthread_exit.cpp:111-139 | the teardown unmaps the bionic TLS range (as written, when page aligned), plus the thread structure and `mmap_size` bytes at the teardown base for a detached thread with a mapping; it unregisters the thread exactly when detached |
| ThreadExit.CorrectedFreed | libc/bionic/pthread_exit.cpp:111-139 | with the thread structure inside its mapping, the corrected teardown frees exactly the whole mapping of a detached thread and nothing of a joinable one |
| ThreadExit.ExitLedger | libc/bionic/pthread_exit.cpp:74-140 | the exit unmaps exactly the signal stack and the teardown's bytes, unregisters the thread exactly when detached, and changes nothing else |
| ThreadExit.AsWrittenTeardownLeaks | libc/bionic/pthread_exit.cpp:121-132 | when the `mmap_size` bytes at a detached thread's stack base lie outside its mapping, the exit as written leaves the mapping's first byte mapped and unmaps the bytes at the stack base; the corrected exit frees the whole mapping |
| Lifecycle.ChildRun | libc/bionic/pthread_create.cpp:353-370 | for a thread with an empty cleanup stack, as `pthread_create` leaves it: the new thread first waits on the creator's lock; the value it exits with is the routine's result, or null for `__do_nothing` |
| Lifecycle.StartRoutineCalls | libc/bionic/pthread_create.cpp:353-377 | a thread whose creation failed after clone runs no user code; any other thread calls its own start routine at exactly one point of its run, and no start routine anywhere else |
| Lifecycle.ChildLedger | libc/bionic/pthread_create.cpp:353-370 | a thread's run leaves its signal stack as it found it, unmaps exactly the teardown's bytes, and leaves the registry exactly when it is detached |
| Lifecycle.JoinableChild | libc/bionic/pthread_exit.cpp:106-139 | a joinable thread that runs its routine ends EXITED_NOT_JOINED with the routine's result and stays registered; when no bytes are unmapped (the corrected exit, or the one as written with an unaligned TLS address) the ledger is as it found it; otherwise the byte at `thread->bionic_tls` is unmapped |
| Lifecycle.DetachedLifecycleReclaims | libc/bionic/pthread_create.cpp:442-451 | a detached thread, or one whose `__init_thread` failed, hands back everything its creation took once it has run with the corrected exit: the ledger is the one from before `pthread_create` |
| Lifecycle.JoinableExitAwaitsJoin | libc/bionic/pthread_exit.cpp:106-139 | a published joinable thread that has left through the corrected exit is EXITED_NOT_JOINED with its result, still registered, with its whole mapping in place for the joiner |
| Lifecycle.JoinableAsWrittenUnmapsTls | libc/bionic/pthread_exit.cpp:67-138 | a published joinable thread that has left through the exit as written is EXITED_NOT_JOINED and registered; the byte at `thread->bionic_tls`, part of the mapping `pthread_create` made, is no longer mapped exactly when `thread->bionic_tls − PTHREAD_GUARD_SIZE` is page aligned, and otherwise the mapping is whole |
| Lifecycle.TlsUnmapAlignment | libc/bionic/pthread_create.cpp:322-333 | for a thread created with a page-multiple stack request, that address is page aligned exactly when the bionic_tls offset in static TLS is a page multiple |
| Lifecycle.AllocatedStackTeardownAgrees | libc/bionic/pthread_create.cpp:310-314 | with an allocated stack the attributes' stack base is the mapping's base, so the two exits unmap the same bytes except the bionic TLS range |
| Lifecycle.ChildAsWrittenLeaks | libc/bionic/pthread_exit.cpp:121-132 | a detached thread whose `mmap_size` bytes at the stack base lie outside its mapping ends with the mapping's first byte mapped and those bytes unmapped |
| Lifecycle.CallerStackDetachedExitLeaks | libc/bionic/pthread_exit.cpp:130-132 | a detached thread created on a caller-supplied stack, after the exit as written, leaves the first byte of its fresh mapping mapped and `mmap_size` bytes of the caller's buffer unmapped |

## Left out

- The handshake lock is events plus a held flag (`Effects.LockHeldAfter`). Atomics, memory ordering and other threads running in parallel are not modelled. A join or detach by another thread during the exit's compare-exchange is among these.
- The registry (`__pthread_internal_add`/`__pthread_internal_remove`) is a set of thread addresses in the ledger. Its list structure belongs to another file.
- Layout.AllocateThreadMapping: the stack end, stack top and thread address are computed without wrap-around. That matches the source only because mmap never returns a mapping that crosses the top of the address space; `MmapReplyOk` does not state that bound.
- Logging, tracing, `prctl` region naming, `ErrnoRestorer`, `set_cached_pid`/`getpid` and `errno` handling are left out. None of them changes the outcome.
- `__init_tcb`, `__init_tcb_dtv`, `__init_tcb_stack_guard`, `__init_bionic_tls_ptrs`, `__init_static_tls` and the TLS slot are left out. They are pointer stores inside the writable static TLS region. The one pointer the exit reads back, `thread->bionic_tls`, is `ThreadExit.BionicTlsAddr`.
- The static TLS layout and `BIONIC_TLS_SIZE` are not part of this model. The offset of bionic_tls and its size are the `Layout.Platform` fields `bionicTlsOffset` and `bionicTlsSize`; the model requires only that the offset falls inside static TLS.
- The `memset` of the thread structure for a caller-supplied stack is left out. It zeroes bytes that are already writable, so it changes nothing in the ledger.
- `__allocate_temp_bionic_tls` and `__free_temp_bionic_tls` are left out. They are plain mmap wrappers that creation does not call.
- The i386 `user_desc`, the hwasan hooks and the aarch64 `x18` store are left out. They are architecture specific.
- Clone flags and the child's registers are left out. `clone` is one event whose answer is an input.
- `__cxa_thread_finalize`, `pthread_key_clean_all`, the start routine and the cleanup routines are opaque calls recorded as events.
- `ScopedSignalBlocker` is left out. Signals are not modelled.
- `mmap`, `mprotect`, `munmap` and `_exit_with_stack_teardown` act on exactly the named bytes. The kernel rounds lengths up to whole pages and rejects an unaligned address with EINVAL; neither is modelled, except that the munmap in `__pthread_unmap_tls`, whose address depends on the bionic_tls offset, does nothing on an unaligned address. The thread page's mprotect (pthread_create.cpp:273-276) gets an unaligned address whenever the stack size is not a page multiple. Its answer is an input, so the model allows the failure EINVAL would cause but does not force it.
- Layout.GapSize: takes PAGE_SIZE to be the int constant 4096, so `__BIONIC_ALIGN` of the uint32 draw is evaluated in 32 bits and wraps to 0 for draws above 2^32 − 4096. Where PAGE_SIZE is a size_t the rounding is done in size_t and does not wrap. The header that defines PAGE_SIZE is not part of this model.
- `pthread_attr_init` is not part of this model. Its attributes are the parameter `defaults` of `Create.Create`.
- AdditionalStacks.ShadowCallStackPlacement: covers only the offset arithmetic. The guard-region mmap, whose failure the source does not check, and the `mprotect` are not modelled, so the lemma assumes a page-aligned region.
- `__init_additional_stacks` is `InitAlternateSignalStack` followed by the shadow call stack. Only the signal stack enters `Lifecycle.ChildRun`.
- Lifecycle.ChildLedger: the shadow call stack guard region (pthread_create.cpp:129-153) is not in the ledger. On aarch64 that region is mapped at thread start and no exit path unmaps it, so a real thread's run leaves it mapped.
- Lifecycle.DetachedLifecycleReclaims: "everything its creation took" means the ledger's mapping, registry and signal stack. The shadow call stack guard region is not modelled, and on aarch64 it outlives the thread.
- Lifecycle.ChildRun: the user routine is taken to return normally with its cleanup handlers popped. A routine that calls `pthread_exit` itself, with handlers pushed, is covered by `ThreadExit.Exit`.
- ThreadExit.ExitJoinCas: only finitely many compare-exchanges may fail spuriously. This is the `spurious` list; an endless run of spurious failures, which the source's loop would spin on, is not modelled.
- Cleanup.Drain: a cleanup stack whose links form a cycle, on which the source's loop never ends, is outside the precondition.
- Sched.InitThread: errno values are inputs, and the `sched_param` struct is one priority.
- Create.Create: the argument is a number. What the start routine does with it is not modelled.

## Findings

| source | as written | input that shows it | evidently intended | confidence | as-written member | corrected member |
|---|---|---|---|---|---|---|
| libc/bionic/pthread_exit.cpp:130-132 | a detached thread's final teardown unmaps `mmap_size` bytes from `thread->attr.stack_base` | a detached thread created with a caller-supplied stack (`attr.stack_base` = B, a buffer the caller mapped outside the new mapping) that returns from its routine: `mmap_size` bytes from B are unmapped, and the rest of the mapping `pthread_create` made, its first byte among others, stays mapped; `Lifecycle.CallerStackDetachedExitLeaks` follows this input from `pthread_create` to the end of the thread | unmap `(thread->mmap_base, mmap_size)`, the mapping `__allocate_thread` recorded; for allocated stacks the two bases coincide (`Lifecycle.AllocatedStackTeardownAgrees`); `ThreadExit.Exit` and `Lifecycle.DetachedLifecycleReclaims` use the corrected teardown | high for the leak; not executed | ThreadExit.AsWrittenTeardownLeaks | ThreadExit.ExitLedger |
| libc/bionic/pthread_exit.cpp:67-71 | `__pthread_unmap_tls`, called on both exit paths (lines 129 and 138), unmaps `BIONIC_TLS_SIZE` bytes plus two guard pages around `thread->bionic_tls`, which `pthread_create` (pthread_create.cpp:333) placed inside static TLS, inside the thread's own mapping | a joinable thread that `pthread_create` published, whose `thread->bionic_tls − PTHREAD_GUARD_SIZE` is page aligned, and that returns from its routine: after its exit the byte at `thread->bionic_tls` is unmapped while the thread waits, registered and EXITED_NOT_JOINED, for its joiner, who expects the mapping whole. With a page-multiple stack request the address is aligned exactly when the bionic_tls offset is a page multiple (`Lifecycle.TlsUnmapAlignment`); otherwise munmap fails with EINVAL, which the source ignores, and nothing is lost | leave the thread's mapping alone at exit: the detached teardown frees the whole mapping, and for a joinable thread the joiner does; `ThreadExit.Exit`, `Lifecycle.JoinableExitAwaitsJoin` and `Lifecycle.DetachedLifecycleReclaims` make no such call | medium: the unmap targets a range that this version of `pthread_create` never maps separately, and whether it takes effect depends on `offset_bionic_tls()`, which is not part of this model; not executed | Lifecycle.JoinableAsWrittenUnmapsTls | Lifecycle.JoinableExitAwaitsJoin |

=== FILE: alloc.dfy ===
/** `__allocate_thread`: the guard rounding, the choice between an allocated
    and a caller-supplied stack, and the placement of the bookkeeping
    structure. */
module Alloc {
  import opened Wrappers
  import opened Machine
  import opened Effects
  import opened Layout
  import opened ThreadTypes

  /** The allocation handed back to the creator: the attributes as updated,
      the mapping, the address of `pthread_internal_t`, and the child's
      initial stack pointer. */
  datatype Allocation = Allocation(attr: Attr, mapping: ThreadMapping, thread: nat, childStack: nat)

  datatype AllocResult = AllocResult(outcome: Result<Allocation>, events: seq<Event>)

  /** Pointer arithmetic and pointer differences stored in a size_t. */
  function WrapAddr(lp64: bool, x: int): (r: nat)
    ensures IsSize(lp64, r)
  {
    x % AddressSpace(lp64)
  }

  /** Attribute fields are size_t values, the draws are ones
      arc4random_uniform can return for the mapping actually requested, and
      mmap answers as the kernel can. */
  predicate AllocInputsOk(p: Platform, attr: Attr, rs: MapReplies) {
    && p.Valid()
    && IsSize(p.lp64, attr.stackBase) && IsSize(p.lp64, attr.stackSize) && IsSize(p.lp64, attr.guardSize)
    && UniformDraw(rs.gapDraw, DrawBound(p, if attr.stackBase == 0 then attr.stackSize else 0))
    && UniformDraw(rs.topDraw, p.threadStructSize)
    && MmapReplyOk(rs)
  }

  /** The stack and guard sizes of the mapping `__allocate_thread` requests:
      the attribute's (guard rounded to pages) for an allocated stack, or no
      stack and one guard page when the caller brings its own. */
  function RequestedStack(attr: Attr): nat {
    if attr.stackBase == 0 then attr.stackSize else 0
  }

  function RequestedGuard(lp64: bool, attr: Attr): nat
    requires IsSize(lp64, attr.guardSize)
  {
    if attr.stackBase == 0 then PageAlign(lp64, attr.guardSize) else PTHREAD_GUARD_SIZE
  }

  /** `__allocate_thread(attr, &tcb, &child_stack)`. */
  function AllocateThread(p: Platform, attr: Attr, rs: MapReplies): (r: AllocResult)
    requires AllocInputsOk(p, attr, rs)
    // Every failure is EAGAIN; a guard size that wraps when rounded makes no
    // system call.
    ensures r.outcome.Err? ==> r.outcome.errno == EAGAIN
    ensures AllMemory(r.events)
    ensures attr.stackBase == 0 && attr.guardSize + PAGE_SIZE - 1 > SizeMax(p.lp64) ==>
              r.outcome == Err(EAGAIN) && r.events == []
    // Otherwise it requests the attribute's stack size with the rounded
    // guard for an allocated stack, and no stack with one guard page under
    // a caller's stack, and succeeds exactly when that mapping does.
    ensures !(attr.stackBase == 0 && attr.guardSize + PAGE_SIZE - 1 > SizeMax(p.lp64)) ==>
              var m := AllocateThreadMapping(p, RequestedStack(attr), RequestedGuard(p.lp64, attr), rs);
              && r.events == m.events
              && (r.outcome.Ok? <==> m.mapping.mmapBase != 0)
              && (r.outcome.Ok? ==> r.outcome.value.mapping == m.mapping)
    ensures r.outcome.Ok? ==>
              var a := r.outcome.value;
              && a.mapping.mmapBase != 0 && a.mapping.mmapSize > 0
              && a.thread == a.mapping.staticTls - ThreadPageSize(p)
              && a.attr.flags == attr.flags
              && a.attr.schedPolicy == attr.schedPolicy && a.attr.schedPriority == attr.schedPriority
  {
    var lp64 := p.lp64;
    PageAlignWrap(lp64, attr.guardSize);
    var guard := RequestedGuard(lp64, attr);
    if attr.stackBase == 0 && guard < attr.guardSize then
      AllocResult(Err(EAGAIN), [])
    else
      var m := AllocateThreadMapping(p, RequestedStack(attr), guard, rs);
      if m.mapping.mmapBase == 0 then
        AllocResult(Err(EAGAIN), m.events)
      else
        AllocResult(Ok(Settle(p, attr, guard, m.mapping)), m.events)
  }

  /** The attributes and child stack `__allocate_thread` settles on once the
      mapping exists: an allocated stack starts at the mapping's base and
      ends at its stack top, a caller's stack keeps its base and ends at
      base plus size; the stack size is recomputed as top minus base. */
  function Settle(p: Platform, attr: Attr, guard: nat, m: ThreadMapping): Allocation
    requires p.Valid() && m.staticTls >= PAGE_SIZE
  {
    var stackBase := if attr.stackBase == 0 then m.stackBase else attr.stackBase;
    var stackTop := if attr.stackBase == 0 then m.stackTop
                    else WrapAddr(p.lp64, attr.stackBase + attr.stackSize);
    var attr' := attr.(stackBase := stackBase,
                       guardSize := if attr.stackBase == 0 then guard else attr.guardSize,
                       stackSize := WrapAddr(p.lp64, stackTop - stackBase));
    Allocation(attr', m, m.staticTls - ThreadPageSize(p), stackTop)
  }

  /** An allocated stack: the stack base is the mapping's base, the child
      starts at the mapping's stack top, the guard is page rounded, and the
      recorded stack size runs from the base (guard included) to that top. */
  lemma AllocatedStack(p: Platform, attr: Attr, rs: MapReplies)
    requires AllocInputsOk(p, attr, rs)
    requires attr.stackBase == 0
    ensures var r := AllocateThread(p, attr, rs);
            r.outcome.Ok? ==>
            var a := r.outcome.value;
            && a.attr.stackBase == a.mapping.mmapBase
            && a.childStack == a.mapping.stackTop
            && a.attr.guardSize == RoundUpPage(attr.guardSize)
            && (a.attr.guardSize + attr.stackSize >= p.threadStructSize + STACK_ALIGN ==>
                  && a.attr.stackSize == a.childStack - a.attr.stackBase
                  && a.attr.guardSize + attr.stackSize - p.threadStructSize - STACK_ALIGN
                       < a.attr.stackSize <= a.attr.guardSize + attr.stackSize)
  {
    if AllocateThread(p, attr, rs).outcome.Ok? {
      PageAlignWrap(p.lp64, attr.guardSize);
      var guard := RequestedGuard(p.lp64, attr);
      var m := AllocateThreadMapping(p, attr.stackSize, guard, rs).mapping;
      assert AllocateThread(p, attr, rs).outcome.value == Settle(p, attr, guard, m);
      assert guard + attr.stackSize <= SizeMax(p.lp64);
      SettleAllocated(p, attr, guard, m);
    }
  }

  lemma SettleAllocated(p: Platform, attr: Attr, guard: nat, m: ThreadMapping)
    requires p.Valid() && m.staticTls >= PAGE_SIZE && attr.stackBase == 0
    requires guard + attr.stackSize <= SizeMax(p.lp64)
    requires m.stackBase == m.mmapBase
    requires StackEnd(m.mmapBase, guard, attr.stackSize) - p.threadStructSize - STACK_ALIGN
               < m.stackTop <= StackEnd(m.mmapBase, guard, attr.stackSize)
    ensures var a := Settle(p, attr, guard, m);
            && a.attr.stackBase == m.mmapBase
            && a.childStack == m.stackTop
            && a.attr.guardSize == guard
            && (guard + attr.stackSize >= p.threadStructSize + STACK_ALIGN ==>
                  && a.attr.stackSize == a.childStack - a.attr.stackBase
                  && guard + attr.stackSize - p.threadStructSize - STACK_ALIGN
                       < a.attr.stackSize <= guard + attr.stackSize)
  {
    StackSizeFromTop(p.lp64, m.stackBase, guard, attr.stackSize, p.threadStructSize, m.stackTop);
  }

  /** A caller-supplied stack: base, size and guard are kept, and the child
      starts at the top of the caller's buffer. */
  lemma CallerStack(p: Platform, attr: Attr, rs: MapReplies)
    requires AllocInputsOk(p, attr, rs)
    requires attr.stackBase != 0
    ensures var r := AllocateThread(p, attr, rs);
            r.outcome.Ok? ==>
            var a := r.outcome.value;
            && a.attr.stackBase == attr.stackBase
            && a.attr.stackSize == attr.stackSize
            && a.attr.guardSize == attr.guardSize
            && a.childStack == WrapAddr(p.lp64, attr.stackBase + attr.stackSize)
  {
    if AllocateThread(p, attr, rs).outcome.Ok? {
      var m := AllocateThreadMapping(p, 0, PTHREAD_GUARD_SIZE, rs).mapping;
      assert AllocateThread(p, attr, rs).outcome.value == Settle(p, attr, PTHREAD_GUARD_SIZE, m);
      WrapRoundTrip(p.lp64, attr.stackBase, attr.stackSize);
    }
  }

  /** Adding a size to a pointer and subtracting the pointer again, both in
      size_t, gives the size back even when the addition wraps. */
  lemma WrapRoundTrip(lp64: bool, b: nat, n: nat)
    requires IsSize(lp64, b) && IsSize(lp64, n)
    ensures WrapAddr(lp64, WrapAddr(lp64, b + n) - b) == n
  {
    var M := AddressSpace(lp64);
    var top := WrapAddr(lp64, b + n);
    if b + n < M {
      assert top == b + n;
    } else {
      assert top == b + n - M;
      assert (top as int - b) % M == (n as int - M) % M == n;
    }
  }

  /** The bookkeeping structure's page lies inside the mapping, above at
      least the requested guard, with static TLS and at least the tail guard
      page above it. */
  lemma ThreadPageInside(p: Platform, attr: Attr, rs: MapReplies)
    requires AllocInputsOk(p, attr, rs)
    requires AllocateThread(p, attr, rs).outcome.Ok?
    ensures var a := AllocateThread(p, attr, rs).outcome.value;
            && a.mapping.mmapBase + RequestedGuard(p.lp64, attr) <= a.thread
            && a.thread + PAGE_SIZE + p.staticTlsSize + PTHREAD_GUARD_SIZE <= a.mapping.mmapBase + a.mapping.mmapSize
            && Span(a.thread, p.threadStructSize) <= Span(a.mapping.mmapBase, a.mapping.mmapSize)
            && a.thread == a.mapping.mmapBase + RequestedGuard(p.lp64, attr) + RequestedStack(attr)
                           + GapSize(p, RequestedStack(attr), rs.gapDraw)
  {
    PageAlignWrap(p.lp64, attr.guardSize);
    var guard := RequestedGuard(p.lp64, attr);
    var stack := RequestedStack(attr);
    var m := AllocateThreadMapping(p, stack, guard, rs).mapping;
    CarveLayout(p, stack, guard, rs);
    var ps := Carve(p, m.mmapBase, m.mmapSize, stack, guard, GapSize(p, stack, rs.gapDraw));
    assert AllocateThread(p, attr, rs).outcome.value.thread == ps[3].base;
    assert ps[3].len == PAGE_SIZE;
    ConsecutiveOrdered(ps, 1, 3);
    ConsecutiveOrdered(ps, 3, 5);
    assert Span(ps[3].base, p.threadStructSize) <= ps[3].Bytes();
  }

  /** The thread structure starts on a page boundary whenever the stack
      size the mapping was asked for is a page multiple: the mapping, the
      guard and the random gap all are. */
  lemma ThreadPageAligned(p: Platform, attr: Attr, rs: MapReplies)
    requires AllocInputsOk(p, attr, rs)
    requires AllocateThread(p, attr, rs).outcome.Ok?
    requires RequestedStack(attr) % PAGE_SIZE == 0
    ensures AllocateThread(p, attr, rs).outcome.value.thread % PAGE_SIZE == 0
  {
    ThreadPageInside(p, attr, rs);
    PageAlignWrap(p.lp64, attr.guardSize);
    var a := AllocateThread(p, attr, rs).outcome.value;
    var base := a.mapping.mmapBase;
    var guard := RequestedGuard(p.lp64, attr);
    var stack := RequestedStack(attr);
    var gap := GapSize(p, stack, rs.gapDraw);
    var m := AllocateThreadMapping(p, stack, guard, rs);
    assert a.mapping == m.mapping;
    assert base == rs.mmap.value;
    RequestedGuardAligned(p.lp64, attr);
    PageMultiplesAdd(base, guard);
    PageMultiplesAdd(base + guard, stack);
    PageMultiplesAdd(base + guard + stack, gap);
  }

  /** The guard the mapping is asked for is a page multiple, rounded up or
      fixed at one page. */
  lemma RequestedGuardAligned(lp64: bool, attr: Attr)
    requires IsSize(lp64, attr.guardSize)
    ensures RequestedGuard(lp64, attr) % PAGE_SIZE == 0
  {
    if attr.stackBase == 0 {
      var t := (attr.guardSize + PAGE_SIZE - 1) % AddressSpace(lp64);
      assert PageAlign(lp64, attr.guardSize) == t - t % PAGE_SIZE;
      assert t - t % PAGE_SIZE == t / PAGE_SIZE * PAGE_SIZE;
    }
  }

  lemma PageMultiplesAdd(x: nat, y: nat)
    requires x % PAGE_SIZE == 0 && y % PAGE_SIZE == 0
    ensures (x + y) % PAGE_SIZE == 0
  {
  }

  /** A failed allocation leaves no mapping behind; a successful one adds
      exactly the mapping it reports. */
  lemma AllocateThreadLedger(p: Platform, attr: Attr, rs: MapReplies, l: Ledger)
    requires AllocInputsOk(p, attr, rs)
    requires WellFormed(l)
    requires MapsFresh(l, AllocateThread(p, attr, rs).events)
    ensures var r := AllocateThread(p, attr, rs);
            r.outcome.Err? ==> Apply(l, r.events) == l
    ensures var r := AllocateThread(p, attr, rs);
            r.outcome.Ok? ==>
              && Apply(l, r.events).mapped == l.mapped + Span(r.outcome.value.mapping.mmapBase, r.outcome.value.mapping.mmapSize)
              && l.writable <= Apply(l, r.events).writable <= l.writable + Span(r.outcome.value.mapping.mmapBase, r.outcome.value.mapping.mmapSize)
              && Apply(l, r.events).registry == l.registry
              && Span(r.outcome.value.mapping.mmapBase, r.outcome.value.mapping.mmapSize) !! l.mapped
  {
    PageAlignWrap(p.lp64, attr.guardSize);
    var guard := RequestedGuard(p.lp64, attr);
    if !(attr.stackBase == 0 && guard < attr.guardSize) {
      var stack := RequestedStack(attr);
      var m := AllocateThreadMapping(p, stack, guard, rs);
      if m.mapping.mmapBase == 0 {
        MappingFailureNoLeak(p, stack, guard, rs, l);
      } else {
        MappingSuccessLedger(p, stack, guard, rs, l);
      }
    }
  }

  lemma StackSizeFromTop(lp64: bool, base: nat, guard: nat, stack: nat, slack: nat, top: nat)
    requires guard + stack <= SizeMax(lp64)
    requires base + guard + stack - slack - STACK_ALIGN < top <= base + guard + stack
    ensures guard + stack >= slack + STACK_ALIGN ==>
              && WrapAddr(lp64, top - base) == top - base
              && guard + stack - slack - STACK_ALIGN < top - base <= guard + stack
  {
  }
}

=== FILE: cleanup.dfy ===
/** The cleanup-handler stack: `__pthread_cleanup_push`,
    `__pthread_cleanup_pop` and the drain loop of `pthread_exit`. Handler
    records live in caller memory (`frames`, by address) and link to the
    previous top through `prev`; 0 is the null pointer. */
module Cleanup {
  import opened Effects

  /** `__pthread_cleanup_t`. */
  datatype Frame = Frame(routine: nat, arg: nat, prev: nat)

  /** The thread's `cleanup_stack` pointer and the handler records it can
      reach. */
  datatype CleanupStack = CleanupStack(top: nat, frames: map<nat, Frame>)

  /** `cs` lists the records reached from `top` by following `prev` until the
      null pointer, top first. */
  predicate IsChain(frames: map<nat, Frame>, top: nat, cs: seq<nat>)
    decreases |cs|
  {
    if cs == [] then top == 0
    else top == cs[0] && top != 0 && top in frames && IsChain(frames, frames[top].prev, cs[1..])
  }

  /** Every record of a chain is present. */
  lemma {:induction false} ChainInFrames(frames: map<nat, Frame>, top: nat, cs: seq<nat>)
    requires IsChain(frames, top, cs)
    ensures forall i :: 0 <= i < |cs| ==> cs[i] in frames && cs[i] != 0
    decreases |cs|
  {
    if cs != [] {
      ChainInFrames(frames, frames[top].prev, cs[1..]);
      assert forall i :: 1 <= i < |cs| ==> cs[i] == cs[1..][i - 1];
    }
  }

  /** The handler calls for the records `cs`, in order. */
  function HandlerRuns(frames: map<nat, Frame>, cs: seq<nat>): (r: seq<Event>)
    requires forall i :: 0 <= i < |cs| ==> cs[i] in frames
    ensures |r| == |cs|
    ensures forall i :: 0 <= i < |cs| ==> r[i] == RunHandler(frames[cs[i]].routine, frames[cs[i]].arg)
  {
    seq(|cs|, i requires 0 <= i < |cs| => RunHandler(frames[cs[i]].routine, frames[cs[i]].arg))
  }

  /** `__pthread_cleanup_push(c, routine, arg)`. */
  function Push(s: CleanupStack, c: nat, routine: nat, arg: nat): (r: CleanupStack)
    ensures r.top == c && c in r.frames
    ensures r.frames[c] == Frame(routine, arg, s.top)
    // Nothing else changes.
    ensures forall a :: a in s.frames && a != c ==> a in r.frames && r.frames[a] == s.frames[a]
    ensures r.frames.Keys == s.frames.Keys + {c}
  {
    CleanupStack(c, s.frames[c := Frame(routine, arg, s.top)])
  }

  /** `__pthread_cleanup_pop(c, execute)`: the top becomes `c`'s predecessor,
      and `c`'s routine runs exactly when `execute` is nonzero. */
  function Pop(s: CleanupStack, c: nat, execute: int): (r: (CleanupStack, seq<Event>))
    requires c in s.frames
    ensures r.0.top == s.frames[c].prev && r.0.frames == s.frames
    ensures |r.1| <= 1
    ensures r.1 != [] <==> execute != 0
    ensures r.1 != [] ==> r.1[0] == RunHandler(s.frames[c].routine, s.frames[c].arg)
  {
    var s' := s.(top := s.frames[c].prev);
    if execute != 0 then (s', [RunHandler(s.frames[c].routine, s.frames[c].arg)]) else (s', [])
  }

  /** Pushing a record that is not already on the stack extends the chain by
      that record. */
  lemma PushExtendsChain(s: CleanupStack, cs: seq<nat>, c: nat, routine: nat, arg: nat)
    requires IsChain(s.frames, s.top, cs)
    requires c != 0 && c !in cs
    ensures IsChain(Push(s, c, routine, arg).frames, c, [c] + cs)
  {
    var r := Push(s, c, routine, arg);
    ChainInFrames(s.frames, s.top, cs);
    ChainFramesAgree(s.frames, r.frames, s.top, cs);
    assert ([c] + cs)[1..] == cs;
  }

  /** A chain only depends on the records it visits. */
  lemma {:induction false} ChainFramesAgree(f: map<nat, Frame>, g: map<nat, Frame>, top: nat, cs: seq<nat>)
    requires IsChain(f, top, cs)
    requires forall a :: a in cs ==> a in f && a in g && g[a] == f[a]
    ensures IsChain(g, top, cs)
    decreases |cs|
  {
    if cs != [] {
      assert forall a :: a in cs[1..] ==> a in cs;
      ChainFramesAgree(f, g, f[top].prev, cs[1..]);
    }
  }

  /** Pop undoes push: after pushing `c` and popping it, the stack is back at
      its previous top, and the routine pushed is the one run. */
  lemma PopUndoesPush(s: CleanupStack, c: nat, routine: nat, arg: nat, execute: int)
    ensures var (s', ran) := Pop(Push(s, c, routine, arg), c, execute);
            && s'.top == s.top
            && (execute != 0 ==> ran == [RunHandler(routine, arg)])
            && (execute == 0 ==> ran == [])
  {
  }

  /** Popping the top of a chain leaves the rest of the chain. */
  lemma PopShortensChain(s: CleanupStack, cs: seq<nat>, execute: int)
    requires IsChain(s.frames, s.top, cs) && cs != []
    ensures IsChain(Pop(s, s.top, execute).0.frames, Pop(s, s.top, execute).0.top, cs[1..])
  {
  }

  /** The drain loop of `pthread_exit`: every handler on the stack runs
      exactly once, top first, and the stack ends empty. The loop in the
      source follows `__cleanup_prev` until it is null; on frames whose
      links form a cycle it never ends. The ghost chain `cs` is a finite
      path to null, so such stacks are outside this method's precondition. */
  method Drain(s: CleanupStack, ghost cs: seq<nat>) returns (top: nat, ran: seq<Event>)
    requires IsChain(s.frames, s.top, cs)
    ensures top == 0
    ensures forall i :: 0 <= i < |cs| ==> cs[i] in s.frames
    ensures ran == HandlerRuns(s.frames, cs)
  {
    ChainInFrames(s.frames, s.top, cs);
    top := s.top;
    ran := [];
    ghost var k := 0;
    while top != 0
      invariant 0 <= k <= |cs|
      invariant IsChain(s.frames, top, cs[k..])
      invariant ran == HandlerRuns(s.frames, cs[..k])
      decreases |cs| - k
    {
      var c := s.frames[top];
      top := c.prev;
      ran := ran + [RunHandler(c.routine, c.arg)];
      assert cs[k..][1..] == cs[k + 1..];
      k := k + 1;
    }
    assert cs[k..] == [];
    assert cs[..k] == cs;
  }

  /** Handlers pushed one after another, from an empty stack, onto distinct
      records. */
  function PushAll(s: CleanupStack, pushes: seq<Frame>, addrs: seq<nat>): (r: CleanupStack)
    requires |pushes| == |addrs|
    decreases |pushes|
  {
    if pushes == [] then s
    else PushAll(Push(s, addrs[0], pushes[0].routine, pushes[0].arg), pushes[1..], addrs[1..])
  }

  function Reverse(xs: seq<nat>): (r: seq<nat>)
    ensures |r| == |xs|
    ensures forall i :: 0 <= i < |xs| ==> r[i] == xs[|xs| - 1 - i]
    decreases |xs|
  {
    if xs == [] then [] else Reverse(xs[1..]) + [xs[0]]
  }

  /** Pushing onto distinct nonzero records builds the chain of those records
      in reverse order of pushing: last in, first out. */
  lemma {:induction false} PushAllChain(s: CleanupStack, cs: seq<nat>, pushes: seq<Frame>, addrs: seq<nat>)
    requires |pushes| == |addrs|
    requires IsChain(s.frames, s.top, cs)
    requires forall i :: 0 <= i < |addrs| ==> addrs[i] != 0 && addrs[i] !in cs
    requires forall i, j :: 0 <= i < j < |addrs| ==> addrs[i] != addrs[j]
    ensures IsChain(PushAll(s, pushes, addrs).frames, PushAll(s, pushes, addrs).top, Reverse(addrs) + cs)
    ensures forall i :: 0 <= i < |addrs| ==>
              addrs[i] in PushAll(s, pushes, addrs).frames
              && PushAll(s, pushes, addrs).frames[addrs[i]].routine == pushes[i].routine
              && PushAll(s, pushes, addrs).frames[addrs[i]].arg == pushes[i].arg
    decreases |pushes|
  {
    if pushes != [] {
      var s1 := Push(s, addrs[0], pushes[0].routine, pushes[0].arg);
      PushExtendsChain(s, cs, addrs[0], pushes[0].routine, pushes[0].arg);
      forall i | 0 <= i < |addrs[1..]|
        ensures addrs[1..][i] != 0 && addrs[1..][i] !in [addrs[0]] + cs
      {
        assert addrs[1..][i] == addrs[i + 1];
      }
      PushAllChain(s1, [addrs[0]] + cs, pushes[1..], addrs[1..]);
      var r := PushAll(s, pushes, addrs);
      assert r == PushAll(s1, pushes[1..], addrs[1..]);
      calc {
        Reverse(addrs[1..]) + ([addrs[0]] + cs);
        (Reverse(addrs[1..]) + [addrs[0]]) + cs;
        Reverse(addrs) + cs;
      }
      assert IsChain(r.frames, r.top, Reverse(addrs) + cs);
      forall i | 0 <= i < |addrs|
        ensures addrs[i] in r.frames && r.frames[addrs[i]].routine == pushes[i].routine
                && r.frames[addrs[i]].arg == pushes[i].arg
      {
        if i > 0 {
          assert addrs[1..][i - 1] == addrs[i];
          assert pushes[1..][i - 1] == pushes[i];
        } else {
          PushAllKeeps(s1, pushes[1..], addrs[1..], addrs[0]);
        }
      }
    } else {
      assert Reverse(addrs) + cs == cs;
    }
  }

  /** Later pushes onto other records leave a record untouched. */
  lemma {:induction false} PushAllKeeps(s: CleanupStack, pushes: seq<Frame>, addrs: seq<nat>, a: nat)
    requires |pushes| == |addrs|
    requires a in s.frames && a !in addrs
    ensures a in PushAll(s, pushes, addrs).frames
    ensures PushAll(s, pushes, addrs).frames[a] == s.frames[a]
    decreases |pushes|
  {
    if pushes != [] {
      PushAllKeeps(Push(s, addrs[0], pushes[0].routine, pushes[0].arg), pushes[1..], addrs[1..], a);
    }
  }

  /** Handlers pushed on an empty stack all run at exit, exactly once each,
      in the reverse of the order they were pushed. */
  method DrainAfterPushes(pushes: seq<Frame>, addrs: seq<nat>) returns (ran: seq<Event>)
    requires |pushes| == |addrs|
    requires forall i :: 0 <= i < |addrs| ==> addrs[i] != 0
    requires forall i, j :: 0 <= i < j < |addrs| ==> addrs[i] != addrs[j]
    ensures |ran| == |pushes|
    ensures forall i :: 0 <= i < |pushes| ==>
              ran[i] == RunHandler(pushes[|pushes| - 1 - i].routine, pushes[|pushes| - 1 - i].arg)
  {
    var empty := CleanupStack(0, map[]);
    PushAllChain(empty, [], pushes, addrs);
    var s := PushAll(empty, pushes, addrs);
    assert Reverse(addrs) + [] == Reverse(addrs);
    var top;
    top, ran := Drain(s, Reverse(addrs));
  }
}

=== FILE: create.dfy ===
/** `pthread_create`: allocation, the handshake lock, clone, `__init_thread`,
    and the unwind that follows a failure at each stage. */
module Create {
  import opened Wrappers
  import opened Machine
  import opened Effects
  import opened Layout
  import opened ThreadTypes
  import opened Sched
  import opened Alloc

  datatype CloneReply = CloneOk(tid: int) | CloneFail(errno: int)

  /** Everything the outside world answers during one creation. */
  datatype CreateReplies = CreateReplies(mapping: MapReplies, clone: CloneReply, sched: SchedReplies)

  /** How far creation got before returning: nothing allocated, allocated but
      not cloned, cloned but `__init_thread` failed, or published. */
  datatype Stage = NothingAllocated | Allocated | Cloned | Published

  /** The return code, the value written to `*thread_out` (None when it is
      left untouched), the stage reached, the bookkeeping structure when one
      was allocated, and every call made. */
  datatype CreateResult = CreateResult(
    code: int, threadOut: Option<nat>, stage: Stage, thread: Option<Thread>, events: seq<Event>)

  /** Kernel answers after allocation: errno values are positive. */
  predicate LaunchRepliesOk(rs: CreateReplies) {
    RepliesOk(rs.sched) && (rs.clone.CloneFail? ==> rs.clone.errno > 0)
  }

  predicate CreateInputsOk(p: Platform, attr: Option<Attr>, defaults: Attr, rs: CreateReplies) {
    AllocInputsOk(p, AttrUsed(attr, defaults), rs.mapping) && LaunchRepliesOk(rs)
  }

  /** `pthread_create(thread_out, attr, start_routine, arg)`; a missing `attr`
      stands for `defaults`, the attributes pthread_attr_init produces. */
  function Create(p: Platform, attr: Option<Attr>, defaults: Attr, routine: nat, arg: nat,
                  rs: CreateReplies): (r: CreateResult)
    requires CreateInputsOk(p, attr, defaults, rs)
    // Only success writes *thread_out, and it writes the published thread.
    ensures r.code == 0 <==> r.threadOut.Some?
    ensures r.code == 0 <==> r.stage == Published
    ensures r.threadOut.Some? ==> r.thread.Some? && r.threadOut.value == r.thread.value.addr
    ensures r.thread.None? <==> r.stage == NothingAllocated
    // No user code after a failed create: a thread that was cloned but
    // not published is detached and runs the no-op routine.
    ensures r.stage == Cloned ==> r.thread.value.joinState == Detached && r.thread.value.start == DoNothing
    ensures r.stage == Published ==> r.thread.value.start == UserRoutine(routine, arg)
    // A published thread is joinable unless the attributes ask for detached.
    ensures r.stage == Published ==>
              r.thread.value.joinState == (if AttrUsed(attr, defaults).flags.detached then Detached else NotJoined)
  {
    var alloc := AllocateThread(p, AttrUsed(attr, defaults), rs.mapping);
    match alloc.outcome
    case Err(e) => CreateResult(e, None, NothingAllocated, None, alloc.events)
    case Ok(al) =>
      var launch := Launch(p, al, routine, arg, rs);
      launch.(events := alloc.events + launch.events)
  }

  /** Everything after a successful `__allocate_thread`: the lock, clone,
      `__init_thread` and publication or unwind. Its events are the ones made
      after allocation. */
  function Launch(p: Platform, al: Allocation, routine: nat, arg: nat, rs: CreateReplies): (r: CreateResult)
    requires LaunchRepliesOk(rs)
    ensures r.code == 0 <==> r.threadOut.Some?
    ensures r.code == 0 <==> r.stage == Published
    ensures r.thread.Some? && r.thread.value.addr == al.thread
    ensures r.thread.value.mmapBase == al.mapping.mmapBase && r.thread.value.mmapSize == al.mapping.mmapSize
    ensures r.thread.value.attr == al.attr && r.thread.value.altStack == 0 && r.thread.value.cleanupTop == 0
    ensures r.threadOut.Some? ==> r.threadOut.value == al.thread
    ensures r.stage != NothingAllocated
    ensures r.stage == Cloned ==> r.thread.value.joinState == Detached && r.thread.value.start == DoNothing
    ensures r.stage == Published ==> r.thread.value.start == UserRoutine(routine, arg)
    ensures r.stage == Allocated ==> rs.clone.CloneFail? && r.code == rs.clone.errno
    // A failed `__init_thread` is reported with its own error number.
    ensures r.stage == Cloned ==>
              && rs.clone.CloneOk?
              && r.code == InitThread(al.attr, rs.clone.tid, p.lp64, rs.sched).code
              && r.code != 0
    ensures r.stage == Published ==>
              r.thread.value.joinState == (if al.attr.flags.detached then Detached else NotJoined)
  {
    var t := Thread(al.thread, al.attr, 0, NotJoined, al.mapping.mmapBase, al.mapping.mmapSize,
                    UserRoutine(routine, arg), 0, 0, 0);
    var locked := [LockInit, LockAcquire];
    match rs.clone
    case CloneFail(e) =>
      var unmap := if t.mmapSize != 0 then [Munmap(t.mmapBase, t.mmapSize)] else [];
      CreateResult(e, None, Allocated, Some(t), locked + [Clone(al.childStack, false), LockRelease] + unmap)
    case CloneOk(tid) =>
      var init := InitThread(t.attr, tid, p.lp64, rs.sched);
      var t' := t.(tid := tid, joinState := init.joinState, cleanupTop := 0);
      var launched := locked + [Clone(al.childStack, true)] + init.events;
      if init.code != 0 then
        // Let the thread run to completion doing nothing: its own exit
        // frees everything.
        var doomed := t'.(joinState := Detached, start := DoNothing);
        CreateResult(init.code, None, Cloned, Some(doomed), launched + [Register(t'.addr), LockRelease])
      else
        CreateResult(0, Some(t'.addr), Published, Some(t'),
                     launched + [Register(t'.addr), PublishHandle(t'.addr), LockRelease])
  }

  function AttrUsed(attr: Option<Attr>, defaults: Attr): Attr {
    if attr.Some? then attr.value else defaults
  }

  /** An allocation failure returns EAGAIN before the lock is touched or clone
      is called, and leaves no mapping behind. */
  lemma CreateAllocFailure(p: Platform, attr: Option<Attr>, defaults: Attr, routine: nat, arg: nat,
                           rs: CreateReplies, l: Ledger)
    requires CreateInputsOk(p, attr, defaults, rs)
    requires WellFormed(l)
    requires MapsFresh(l, Create(p, attr, defaults, routine, arg, rs).events)
    requires Create(p, attr, defaults, routine, arg, rs).stage == NothingAllocated
    ensures var r := Create(p, attr, defaults, routine, arg, rs);
            && r.code == EAGAIN
            && (forall i :: 0 <= i < |r.events| ==> !LockEvent(r.events[i]) && !r.events[i].Clone?)
            && Apply(l, r.events) == l
  {
    AllocateThreadLedger(p, AttrUsed(attr, defaults), rs.mapping, l);
  }

  /** After a clone failure the lock is released and then exactly the
      mapping is unmapped; nothing is registered. */
  lemma LaunchCloneFailure(p: Platform, al: Allocation, routine: nat, arg: nat, rs: CreateReplies, l: Ledger)
    requires LaunchRepliesOk(rs)
    requires al.mapping.mmapSize != 0
    requires rs.clone.CloneFail?
    ensures var r := Launch(p, al, routine, arg, rs);
            && r.stage == Allocated
            && Apply(l, r.events) == Step(l, Munmap(al.mapping.mmapBase, al.mapping.mmapSize))
            && r.events[|r.events| - 2..] == [LockRelease, Munmap(al.mapping.mmapBase, al.mapping.mmapSize)]
            && (forall i :: 0 <= i < |r.events| ==> !r.events[i].Register?)
            && !LockHeldAfter(false, r.events)
  {
    var r := Launch(p, al, routine, arg, rs);
    var head := [LockInit, LockAcquire, Clone(al.childStack, false), LockRelease];
    var unmap := [Munmap(al.mapping.mmapBase, al.mapping.mmapSize)];
    assert r.events == head + unmap;
    ApplyAppend(l, head, unmap);
    ApplyUntouched(l, head);
    assert Apply(l, unmap) == Step(l, unmap[0]);
    LockReleasedAt(false, r.events, 3);
  }

  /** The calls made from the lock's creation through `__init_thread`. */
  function Launched(p: Platform, al: Allocation, rs: CreateReplies): seq<Event>
    requires LaunchRepliesOk(rs) && rs.clone.CloneOk?
  {
    [LockInit, LockAcquire, Clone(al.childStack, true)] + InitThread(al.attr, rs.clone.tid, p.lp64, rs.sched).events
  }

  lemma LaunchedEffects(p: Platform, al: Allocation, rs: CreateReplies, l: Ledger, rest: seq<Event>)
    requires LaunchRepliesOk(rs) && rs.clone.CloneOk?
    ensures Apply(l, Launched(p, al, rs) + rest) == Apply(l, rest)
    ensures forall i :: 0 <= i < |Launched(p, al, rs)| ==>
              !Launched(p, al, rs)[i].PublishHandle? && !Launched(p, al, rs)[i].LockRelease?
  {
    var mid := Launched(p, al, rs);
    ApplyAppend(l, mid, rest);
    ApplyUntouched(l, mid);
  }

  /** The calls made after a successful clone, by how creation ended. */
  lemma LaunchShape(p: Platform, al: Allocation, routine: nat, arg: nat, rs: CreateReplies)
    requires LaunchRepliesOk(rs)
    requires rs.clone.CloneOk?
    ensures var r := Launch(p, al, routine, arg, rs);
            && r.stage in {Cloned, Published}
            && (r.stage == Cloned ==> r.events == Launched(p, al, rs) + [Register(al.thread), LockRelease])
            && (r.stage == Published ==>
                  r.events == Launched(p, al, rs) + [Register(al.thread), PublishHandle(al.thread), LockRelease])
  {
  }

  /** After an init failure the thread is registered and the lock released
      last; *thread_out is never written. */
  lemma LaunchInitFailure(p: Platform, al: Allocation, routine: nat, arg: nat, rs: CreateReplies, l: Ledger)
    requires LaunchRepliesOk(rs)
    requires Launch(p, al, routine, arg, rs).stage == Cloned
    ensures var r := Launch(p, al, routine, arg, rs);
            && Apply(l, r.events) == l.(registry := l.registry + {al.thread})
            && r.events[|r.events| - 2..] == [Register(al.thread), LockRelease]
            && PublishHandle(al.thread) !in r.events
            && !LockHeldAfter(false, r.events)
  {
    LaunchShape(p, al, routine, arg, rs);
    var mid := Launched(p, al, rs);
    LaunchedEffects(p, al, rs, l, [Register(al.thread), LockRelease]);
    UnpublishedTail(l, mid, al.thread);
  }

  /** Registering and releasing the lock, without publishing, after calls
      that publish nothing. */
  lemma UnpublishedTail(l: Ledger, mid: seq<Event>, a: nat)
    requires forall i :: 0 <= i < |mid| ==> !mid[i].PublishHandle?
    ensures var evs := mid + [Register(a), LockRelease];
            && Apply(l, [Register(a), LockRelease]) == l.(registry := l.registry + {a})
            && evs[|evs| - 2..] == [Register(a), LockRelease]
            && PublishHandle(a) !in evs
            && !LockHeldAfter(false, evs)
  {
    var tail := [Register(a), LockRelease];
    var evs := mid + tail;
    ApplyTwo(l, tail);
    LockReleasedLast(false, evs);
    assert evs[|evs| - 2..] == tail;
    forall i | 0 <= i < |evs|
      ensures evs[i] != PublishHandle(a)
    {
      if i < |mid| {
        assert evs[i] == mid[i];
      }
    }
  }

  /** On success the thread is registered, *thread_out is written, and only
      then is the lock released. */
  lemma LaunchPublished(p: Platform, al: Allocation, routine: nat, arg: nat, rs: CreateReplies, l: Ledger)
    requires LaunchRepliesOk(rs)
    requires Launch(p, al, routine, arg, rs).stage == Published
    ensures var r := Launch(p, al, routine, arg, rs);
            && Apply(l, r.events) == l.(registry := l.registry + {al.thread})
            && |r.events| >= 3
            && r.events[|r.events| - 3] == Register(al.thread)
            && r.events[|r.events| - 2] == PublishHandle(al.thread)
            && r.events[|r.events| - 1] == LockRelease
            && !LockHeldAfter(false, r.events)
  {
    LaunchShape(p, al, routine, arg, rs);
    var mid := Launched(p, al, rs);
    LaunchedEffects(p, al, rs, l, [Register(al.thread), PublishHandle(al.thread), LockRelease]);
    PublishTail(l, mid, al.thread);
  }

  /** Registering, publishing and releasing the lock after calls that touch
      nothing. */
  lemma PublishTail(l: Ledger, mid: seq<Event>, a: nat)
    ensures var evs := mid + [Register(a), PublishHandle(a), LockRelease];
            && Apply(l, [Register(a), PublishHandle(a), LockRelease]) == l.(registry := l.registry + {a})
            && |evs| >= 3
            && evs[|evs| - 3] == Register(a) && evs[|evs| - 2] == PublishHandle(a) && evs[|evs| - 1] == LockRelease
            && !LockHeldAfter(false, evs)
  {
    var tail := [Register(a), PublishHandle(a), LockRelease];
    ApplyStep3(l, tail);
    LockReleasedLast(false, mid + tail);
  }

  /** The lock is released exactly once, at the very end: the child cannot
      start before the handle is published. */
  lemma LaunchPublishedReleasesLast(p: Platform, al: Allocation, routine: nat, arg: nat, rs: CreateReplies)
    requires LaunchRepliesOk(rs)
    requires Launch(p, al, routine, arg, rs).stage == Published
    ensures var r := Launch(p, al, routine, arg, rs);
            && r.events[|r.events| - 1] == LockRelease
            && forall j :: 0 <= j < |r.events| - 1 ==> !r.events[j].LockRelease?
  {
    var r := Launch(p, al, routine, arg, rs);
    LaunchShape(p, al, routine, arg, rs);
    var mid := Launched(p, al, rs);
    var tail := [Register(al.thread), PublishHandle(al.thread), LockRelease];
    LaunchedEffects(p, al, rs, Ledger({}, {}, {}), tail);
    forall j | 0 <= j < |r.events| - 1
      ensures !r.events[j].LockRelease?
    {
      if j < |mid| {
        assert r.events[j] == mid[j];
      }
    }
  }

  /** A clone failure returns clone's errno and leaves the ledger exactly as
      before creation: the mapping is gone and nothing is registered. */
  lemma CreateCloneFailure(p: Platform, attr: Option<Attr>, defaults: Attr, routine: nat, arg: nat,
                           rs: CreateReplies, l: Ledger)
    requires CreateInputsOk(p, attr, defaults, rs)
    requires WellFormed(l)
    requires MapsFresh(l, Create(p, attr, defaults, routine, arg, rs).events)
    requires Create(p, attr, defaults, routine, arg, rs).stage == Allocated
    ensures var r := Create(p, attr, defaults, routine, arg, rs);
            && rs.clone.CloneFail? && r.code == rs.clone.errno
            && Apply(l, r.events) == l
            && !LockHeldAfter(false, r.events)
  {
    var alloc := AllocateThread(p, AttrUsed(attr, defaults), rs.mapping);
    var al := alloc.outcome.value;
    MapsFreshPrefix(l, alloc.events, Launch(p, al, routine, arg, rs).events);
    AllocateThreadLedger(p, AttrUsed(attr, defaults), rs.mapping, l);
    CloneFailureAfterAlloc(p, al, routine, arg, rs, l, alloc.events);
  }

  /** A clone failure after an allocation that added exactly the fresh
      mapping gives back the ledger from before the allocation, and leaves
      the lock free. */
  lemma CloneFailureAfterAlloc(p: Platform, al: Allocation, routine: nat, arg: nat, rs: CreateReplies,
                               l: Ledger, allocEvents: seq<Event>)
    requires LaunchRepliesOk(rs) && rs.clone.CloneFail?
    requires AllMemory(allocEvents) && WellFormed(l) && al.mapping.mmapSize != 0
    requires var S := Span(al.mapping.mmapBase, al.mapping.mmapSize);
             && S !! l.mapped
             && Apply(l, allocEvents).mapped == l.mapped + S
             && l.writable <= Apply(l, allocEvents).writable <= l.writable + S
             && Apply(l, allocEvents).registry == l.registry
    ensures var evs := allocEvents + Launch(p, al, routine, arg, rs).events;
            Apply(l, evs) == l && !LockHeldAfter(false, evs)
  {
    var launch := Launch(p, al, routine, arg, rs);
    var l1 := Apply(l, allocEvents);
    ApplyAppend(l, allocEvents, launch.events);
    LaunchCloneFailure(p, al, routine, arg, rs, l1);
    UnmapRestores(l, l1, al.mapping.mmapBase, al.mapping.mmapSize);
    LockHeldAppend(false, allocEvents, launch.events);
    LockHeldUntouched(false, allocEvents);
  }

  /** Once clone has succeeded, whether `__init_thread` failed or not, the
      new mapping stays (owned by the thread) and the thread is registered;
      nothing else in the ledger changes. */
  lemma CreateClonedLedger(p: Platform, attr: Option<Attr>, defaults: Attr, routine: nat, arg: nat,
                           rs: CreateReplies, l: Ledger)
    requires CreateInputsOk(p, attr, defaults, rs)
    requires WellFormed(l)
    requires MapsFresh(l, Create(p, attr, defaults, routine, arg, rs).events)
    requires Create(p, attr, defaults, routine, arg, rs).stage in {Cloned, Published}
    ensures var r := Create(p, attr, defaults, routine, arg, rs);
            var t := r.thread.value;
            && Span(t.mmapBase, t.mmapSize) !! l.mapped
            && Apply(l, r.events).mapped == l.mapped + Span(t.mmapBase, t.mmapSize)
            && l.writable <= Apply(l, r.events).writable <= l.writable + Span(t.mmapBase, t.mmapSize)
            && Apply(l, r.events).registry == l.registry + {t.addr}
            && !LockHeldAfter(false, r.events)
  {
    var alloc := AllocateThread(p, AttrUsed(attr, defaults), rs.mapping);
    var al := alloc.outcome.value;
    MapsFreshPrefix(l, alloc.events, Launch(p, al, routine, arg, rs).events);
    AllocateThreadLedger(p, AttrUsed(attr, defaults), rs.mapping, l);
    LaunchAfterAlloc(p, al, routine, arg, rs, l, alloc.events);
  }

  /** A launch that got past clone, after allocation calls that leave the
      lock alone: it adds the registration to the ledger the allocation
      left, and leaves the lock free. */
  lemma LaunchAfterAlloc(p: Platform, al: Allocation, routine: nat, arg: nat, rs: CreateReplies,
                         l: Ledger, allocEvents: seq<Event>)
    requires LaunchRepliesOk(rs)
    requires Launch(p, al, routine, arg, rs).stage in {Cloned, Published}
    requires AllMemory(allocEvents)
    ensures var evs := allocEvents + Launch(p, al, routine, arg, rs).events;
            var l1 := Apply(l, allocEvents);
            && Apply(l, evs) == l1.(registry := l1.registry + {al.thread})
            && !LockHeldAfter(false, evs)
  {
    var launch := Launch(p, al, routine, arg, rs);
    var l1 := Apply(l, allocEvents);
    ApplyAppend(l, allocEvents, launch.events);
    if launch.stage == Cloned {
      LaunchInitFailure(p, al, routine, arg, rs, l1);
    } else {
      LaunchPublished(p, al, routine, arg, rs, l1);
    }
    LockHeldAppend(false, allocEvents, launch.events);
    LockHeldUntouched(false, allocEvents);
  }

  /** The thread a create hands on lives inside its own mapping, above the
      guard `__allocate_thread` requested and below static TLS and at least
      one guard page, and carries the attributes `__allocate_thread` settled
      on. */
  lemma CreatedThreadPlacement(p: Platform, attr: Option<Attr>, defaults: Attr, routine: nat, arg: nat,
                               rs: CreateReplies)
    requires CreateInputsOk(p, attr, defaults, rs)
    requires Create(p, attr, defaults, routine, arg, rs).thread.Some?
    ensures var alloc := AllocateThread(p, AttrUsed(attr, defaults), rs.mapping);
            var t := Create(p, attr, defaults, routine, arg, rs).thread.value;
            && alloc.outcome.Ok?
            && t.addr == alloc.outcome.value.thread
            && t.attr == alloc.outcome.value.attr
            && t.altStack == 0 && t.cleanupTop == 0 && t.mmapSize > 0
            && t.mmapBase + RequestedGuard(p.lp64, AttrUsed(attr, defaults)) <= t.addr
            && t.addr + PAGE_SIZE + p.staticTlsSize + PTHREAD_GUARD_SIZE <= t.mmapBase + t.mmapSize
            && Span(t.addr, p.threadStructSize) <= Span(t.mmapBase, t.mmapSize)
  {
    ThreadPageInside(p, AttrUsed(attr, defaults), rs.mapping);
  }
}

=== FILE: effects.dfy ===
/** The abstract operating system: every system call, library call and
    hand-off the create and exit paths make is an `Event` in a trace, and a
    `Ledger` of mapped bytes, writable bytes and registered threads is the
    part of the world those events change. */
module Effects {
  import Machine

  /** Byte x lies in `[base, base + len)`. */
  predicate Within(x: nat, base: nat, len: nat) {
    base <= x < base + len
  }

  /** The bytes `[base, base + len)`. */
  function Span(base: nat, len: nat): (r: set<nat>)
    ensures forall x :: x in r <==> Within(x, base, len)
  {
    // The bounds make the set finite; `Within` gives the quantifier in the
    // postcondition a term to trigger on.
    set x: nat | base <= x < base + len && Within(x, base, len)
  }

  datatype Event =
    // Memory. A failed call is recorded with `ok == false` and changes nothing.
    | Mmap(base: nat, len: nat, writable: bool)
    | MmapFailed(len: nat)
    | Mprotect(base: nat, len: nat, writable: bool, ok: bool)
    | Munmap(base: nat, len: nat)
    // `__pthread_unmap_tls`: an munmap of the bionic_tls block and the
    // guard page on either side of it. munmap rejects an address that is not
    // page aligned with EINVAL and unmaps nothing; the caller ignores that.
    | UnmapBionicTls(base: nat, len: nat)
    // Signals.
    | SigAltStack(base: nat, len: nat)
    | SigAltStackDisable
    // Scheduling.
    | SchedGetScheduler
    | SchedGetParam
    | SchedSetScheduler(tid: int, policy: int, priority: int, ok: bool)
    // The startup handshake lock.
    | LockInit
    | LockAcquire
    | LockRelease
    // Thread lifecycle.
    | Clone(stack: nat, ok: bool)
    | Register(thread: nat)
    | Unregister(thread: nat)
    | PublishHandle(thread: nat)
    | RunStartRoutine(routine: nat, arg: nat)
    | RunHandler(routine: nat, arg: nat)
    | CxaThreadFinalize
    | KeyCleanAll
    | ClearTidAddress
    | ExitThread

  /** What the events can change: bytes mapped, bytes mapped read+write, and
      the live-thread registry. */
  datatype Ledger = Ledger(mapped: set<nat>, writable: set<nat>, registry: set<nat>)

  /** Writable memory is always mapped. */
  predicate WellFormed(l: Ledger) {
    l.writable <= l.mapped
  }

  function Step(l: Ledger, e: Event): (r: Ledger)
    ensures WellFormed(l) ==> WellFormed(r)
  {
    match e
    case Mmap(b, n, w) =>
      l.(mapped := l.mapped + Span(b, n),
         writable := if w then l.writable + Span(b, n) else l.writable - Span(b, n))
    case Mprotect(b, n, w, ok) =>
      if !ok then l
      else if w then l.(writable := l.writable + (Span(b, n) * l.mapped))
      else l.(writable := l.writable - Span(b, n))
    case Munmap(b, n) =>
      l.(mapped := l.mapped - Span(b, n), writable := l.writable - Span(b, n))
    case UnmapBionicTls(b, n) =>
      if b % Machine.PAGE_SIZE != 0 then l
      else l.(mapped := l.mapped - Span(b, n), writable := l.writable - Span(b, n))
    case Register(t) => l.(registry := l.registry + {t})
    case Unregister(t) => l.(registry := l.registry - {t})
    case _ => l
  }

  function Apply(l: Ledger, evs: seq<Event>): (r: Ledger)
    ensures WellFormed(l) ==> WellFormed(r)
    decreases |evs|
  {
    if evs == [] then l else Apply(Step(l, evs[0]), evs[1..])
  }

  lemma {:induction false} ApplyAppend(l: Ledger, a: seq<Event>, b: seq<Event>)
    ensures Apply(l, a + b) == Apply(Apply(l, a), b)
    decreases |a|
  {
    if a == [] {
      assert a + b == b;
    } else {
      assert (a + b)[1..] == a[1..] + b;
      ApplyAppend(Step(l, a[0]), a[1..], b);
    }
  }

  /** An event that can change the ledger. */
  predicate Touches(e: Event) {
    e.Mmap? || e.Mprotect? || e.Munmap? || e.UnmapBionicTls? || e.Register? || e.Unregister?
  }

  lemma {:induction false} ApplyUntouched(l: Ledger, evs: seq<Event>)
    requires forall i :: 0 <= i < |evs| ==> !Touches(evs[i])
    ensures Apply(l, evs) == l
    decreases |evs|
  {
    if evs != [] {
      ApplyUntouched(l, evs[1..]);
    }
  }

  /** Events that touch nothing can be dropped from the front of a trace. */
  lemma ApplyInertPrefix(l: Ledger, a: seq<Event>, b: seq<Event>)
    requires forall i :: 0 <= i < |a| ==> !Touches(a[i])
    ensures Apply(l, a + b) == Apply(l, b)
  {
    ApplyAppend(l, a, b);
    ApplyUntouched(l, a);
  }

  /** Inert events can be dropped from anywhere in a trace. */
  lemma ApplySkipping(l: Ledger, a: seq<Event>, b: seq<Event>, c: seq<Event>, d: seq<Event>)
    requires forall i :: 0 <= i < |a| ==> !Touches(a[i])
    requires forall i :: 0 <= i < |c| ==> !Touches(c[i])
    ensures Apply(l, a + b + c + d) == Apply(Apply(l, b), d)
  {
    assert a + b + c + d == a + (b + (c + d));
    ApplyInertPrefix(l, a, b + (c + d));
    ApplyAppend(l, b, c + d);
    ApplyInertPrefix(Apply(l, b), c, d);
  }

  /** Whether the handshake lock is held after the events, starting from
      `held`. */
  function LockHeldAfter(held: bool, evs: seq<Event>): bool
    decreases |evs|
  {
    if evs == [] then held
    else LockHeldAfter(
           match evs[0]
           case LockInit => false
           case LockAcquire => true
           case LockRelease => false
           case _ => held,
           evs[1..])
  }

  /** Every successful mmap among the events reserves bytes that were not
      mapped before: the kernel never hands out memory that is in use. */
  predicate MapsFresh(l: Ledger, evs: seq<Event>) {
    forall i :: 0 <= i < |evs| && evs[i].Mmap? ==> Span(evs[i].base, evs[i].len) !! l.mapped
  }

  /** A memory system call, successful or not. */
  predicate MemoryEvent(e: Event) {
    e.Mmap? || e.MmapFailed? || e.Mprotect? || e.Munmap?
  }

  predicate AllMemory(evs: seq<Event>) {
    forall i :: 0 <= i < |evs| ==> MemoryEvent(evs[i])
  }

  predicate LockEvent(e: Event) {
    e.LockInit? || e.LockAcquire? || e.LockRelease?
  }

  lemma {:induction false} LockHeldAppend(held: bool, a: seq<Event>, b: seq<Event>)
    ensures LockHeldAfter(held, a + b) == LockHeldAfter(LockHeldAfter(held, a), b)
    decreases |a|
  {
    if a != [] {
      assert (a + b)[1..] == a[1..] + b;
      var h := match a[0]
               case LockInit => false
               case LockAcquire => true
               case LockRelease => false
               case _ => held;
      LockHeldAppend(h, a[1..], b);
    } else {
      assert a + b == b;
    }
  }

  lemma {:induction false} LockHeldUntouched(held: bool, evs: seq<Event>)
    requires forall i :: 0 <= i < |evs| ==> !LockEvent(evs[i])
    ensures LockHeldAfter(held, evs) == held
    decreases |evs|
  {
    if evs != [] {
      LockHeldUntouched(held, evs[1..]);
    }
  }

  lemma MapsFreshPrefix(l: Ledger, a: seq<Event>, b: seq<Event>)
    requires MapsFresh(l, a + b)
    ensures MapsFresh(l, a)
  {
    forall i | 0 <= i < |a| && a[i].Mmap?
      ensures Span(a[i].base, a[i].len) !! l.mapped
    {
      assert (a + b)[i] == a[i];
    }
  }

  /** The lock is free after a trace whose last lock event is a release. */
  lemma LockReleasedAt(held: bool, evs: seq<Event>, k: nat)
    requires k < |evs| && evs[k] == LockRelease
    requires forall j :: k < j < |evs| ==> !LockEvent(evs[j])
    ensures !LockHeldAfter(held, evs)
  {
    var a := evs[..k];
    var b := evs[k..];
    assert evs == a + b;
    LockHeldAppend(held, a, b);
    assert b == [LockRelease] + b[1..];
    assert LockHeldAfter(LockHeldAfter(held, a), b) == LockHeldAfter(false, b[1..]);
    LockHeldUntouched(false, b[1..]);
  }

  /** The lock is free after a trace that ends with a release. */
  lemma LockReleasedLast(held: bool, evs: seq<Event>)
    requires |evs| > 0 && evs[|evs| - 1] == LockRelease
    ensures !LockHeldAfter(held, evs)
  {
    LockReleasedAt(held, evs, |evs| - 1);
  }

  lemma ApplyTwo(l: Ledger, evs: seq<Event>)
    requires |evs| == 2
    ensures Apply(l, evs) == Step(Step(l, evs[0]), evs[1])
  {
    var l1 := Step(l, evs[0]);
    assert Apply(l, evs) == Apply(l1, evs[1..]);
    assert Apply(l1, evs[1..]) == Apply(Step(l1, evs[1]), evs[2..]);
  }

  /** Unmapping a fresh region that was all that got added gives back the
      ledger from before it was mapped. */
  lemma UnmapRestores(l: Ledger, l1: Ledger, base: nat, len: nat)
    requires WellFormed(l)
    requires Span(base, len) !! l.mapped
    requires l1.mapped == l.mapped + Span(base, len)
    requires l.writable <= l1.writable <= l.writable + Span(base, len)
    requires l1.registry == l.registry
    ensures Step(l1, Munmap(base, len)) == l
  {
    var S := Span(base, len);
    assert l1.mapped - S == l.mapped;
    assert l1.writable - S == l.writable;
  }

  lemma ApplyStep3(l: Ledger, evs: seq<Event>)
    requires |evs| == 3
    ensures Apply(l, evs) == Step(Step(Step(l, evs[0]), evs[1]), evs[2])
  {
    var l1 := Step(l, evs[0]);
    var l2 := Step(l1, evs[1]);
    assert Apply(l, evs) == Apply(l1, evs[1..]);
    assert Apply(l1, evs[1..]) == Apply(l2, evs[2..]);
    assert Apply(l2, evs[2..]) == Apply(Step(l2, evs[2]), evs[3..]);
  }

  lemma ApplyStep4(l: Ledger, evs: seq<Event>)
    requires |evs| == 4
    ensures Apply(l, evs) == Step(Step(Step(Step(l, evs[0]), evs[1]), evs[2]), evs[3])
  {
    var l1 := Step(l, evs[0]);
    var l2 := Step(l1, evs[1]);
    var l3 := Step(l2, evs[2]);
    assert Apply(l, evs) == Apply(l1, evs[1..]);
    assert Apply(l1, evs[1..]) == Apply(l2, evs[2..]);
    assert Apply(l2, evs[2..]) == Apply(l3, evs[3..]);
    assert Apply(l3, evs[3..]) == Apply(Step(l3, evs[3]), evs[4..]);
  }
}

=== FILE: exit.dfy ===
/** `pthread_exit`: thread-local destructors, the cleanup handlers, key
    destructors, the alternate signal stack, the join-state transition, and
    the release of the thread's memory when it is detached. */
module ThreadExit {
  import opened Wrappers
  import opened Machine
  import opened Effects
  import opened ThreadTypes
  import opened Cleanup
  import opened Layout
  import opened AdditionalStacks

  /** The join-state transition an exiting thread makes: (state it found,
      state it leaves). */
  function JoinOnExit(s: JoinState): (r: (JoinState, JoinState))
  {
    (s, if s == NotJoined then ExitedNotJoined else s)
  }

  /** The compare-exchange loop of `pthread_exit`. `spurious[i]` says
      whether the i-th weak compare-exchange fails although the values
      matched; after the listed attempts none fails spuriously. The loop
      ends with the transition `JoinOnExit` describes, whatever the
      spurious failures. */
  method ExitJoinCas(state: JoinState, spurious: seq<bool>) returns (found: JoinState, cur: JoinState)
    ensures (found, cur) == JoinOnExit(state)
    ensures cur == ExitedNotJoined <==> state == NotJoined || state == ExitedNotJoined
    ensures state != NotJoined ==> cur == state
  {
    found := NotJoined;
    cur := state;
    var done := false;
    var i := 0;
    while found == NotJoined && !done
      invariant 0 <= i <= |spurious|
      invariant done ==> state == NotJoined && found == NotJoined && cur == ExitedNotJoined
      invariant !done ==> cur == state && (found == NotJoined || found == state)
      decreases |spurious| - i, if found == NotJoined && !done then 1 else 0
    {
      var fails := i < |spurious| && spurious[i];
      if i < |spurious| {
        i := i + 1;
      }
      if cur == found && !fails {
        cur := ExitedNotJoined;
        done := true;
      } else {
        // A failed compare-exchange loads the current value into `found`.
        found := cur;
      }
    }
  }

  /** The bytes of the alternate signal stack, if the thread has one. */
  function AltStackBytes(t: Thread): set<nat> {
    if t.altStack != 0 then Span(t.altStack, SIGNAL_STACK_SIZE) else {}
  }

  /** Disabling and freeing the alternate signal stack. */
  function ReleaseAltStack(t: Thread): (r: (Thread, seq<Event>))
    ensures r.0 == t.(altStack := 0)
    ensures r.1 == [] <==> t.altStack == 0
    ensures t.altStack != 0 ==> SigAltStackDisable == r.1[0]
  {
    if t.altStack != 0 then
      (t.(altStack := 0), [SigAltStackDisable, Munmap(t.altStack, SIGNAL_STACK_SIZE)])
    else (t, [])
  }

  /** The exit path as the source writes it, or with the corrections of both
      findings applied. As written, `__pthread_unmap_tls` unmaps the
      bionic_tls block on every path, and the final teardown unmaps
      `mmap_size` bytes at `attr.stack_base`. Corrected, the bionic_tls
      block, which lies inside the thread's mapping, is left to the mapping's
      teardown or to the joiner, and the teardown unmaps at the mapping's own
      base. Everything else is the same in both. */
  datatype ExitVersion = AsWritten | Corrected

  /** Where the final teardown unmaps the thread's mapping. */
  function TeardownBase(t: Thread, v: ExitVersion): nat {
    match v
    case AsWritten => t.attr.stackBase
    case Corrected => t.mmapBase
  }

  /** `thread->bionic_tls`: `pthread_create` points it at the bionic_tls
      struct in static TLS, and static TLS starts one thread page (see
      `ThreadPageSize`) above the thread structure. */
  function BionicTlsAddr(p: Platform, t: Thread): nat {
    t.addr + PAGE_SIZE + p.bionicTlsOffset
  }

  /** The bytes `__pthread_unmap_tls` unmaps: `BIONIC_TLS_SIZE` bytes from
      `thread->bionic_tls`, with one guard page below and one above. */
  function BionicTlsBytes(p: Platform, t: Thread): set<nat> {
    Span(BionicTlsAddr(p, t) - PTHREAD_GUARD_SIZE, p.bionicTlsSize + 2 * PTHREAD_GUARD_SIZE)
  }

  /** `munmap` in `__pthread_unmap_tls` takes effect only when the address
      one guard page below `thread->bionic_tls` is page aligned; otherwise it
      fails with EINVAL, which the source ignores. */
  predicate TlsUnmapAligned(p: Platform, t: Thread) {
    (BionicTlsAddr(p, t) - PTHREAD_GUARD_SIZE) % PAGE_SIZE == 0
  }

  /** The bytes `__pthread_unmap_tls` actually unmaps in version `v`. */
  function TlsFreed(p: Platform, t: Thread, v: ExitVersion): set<nat> {
    if v == AsWritten && TlsUnmapAligned(p, t) then BionicTlsBytes(p, t) else {}
  }

  /** The call to `__pthread_unmap_tls`, which only the source as written
      makes. */
  function UnmapTls(p: Platform, t: Thread, v: ExitVersion): seq<Event> {
    match v
    case AsWritten =>
      [UnmapBionicTls(BionicTlsAddr(p, t) - PTHREAD_GUARD_SIZE, p.bionicTlsSize + 2 * PTHREAD_GUARD_SIZE)]
    case Corrected => []
  }

  /** The events after the join transition, given the state it found. */
  function Teardown(p: Platform, t: Thread, found: JoinState, v: ExitVersion): seq<Event> {
    if found == Detached && t.mmapSize != 0 then
      [ClearTidAddress, Unregister(t.addr)] + UnmapTls(p, t, v)
        + [Munmap(t.addr, p.threadStructSize), Munmap(TeardownBase(t, v), t.mmapSize), ExitThread]
    else if found == Detached then
      [ClearTidAddress, Unregister(t.addr)] + UnmapTls(p, t, v) + [ExitThread]
    else
      UnmapTls(p, t, v) + [ExitThread]
  }

  datatype ExitResult = ExitResult(thread: Thread, events: seq<Event>)

  /** The whole of `pthread_exit(retval)` for a thread whose cleanup stack
      holds the records `cs`. Only the records' presence in `frames` is
      required, so the handlers run in the order of `cs`; that is the
      source's order, most recent first, when `cs` is the chain from
      `t.cleanupTop` (`IsChain`), as `Exit` requires and as `ChildRun`
      has with an empty stack. `ExitOrdering` is read under that proviso. */
  function ExitOf(p: Platform, t: Thread, frames: map<nat, Frame>, cs: seq<nat>, retval: nat, v: ExitVersion): (r: ExitResult)
    requires forall i :: 0 <= i < |cs| ==> cs[i] in frames
    ensures r.thread.returnValue == retval && r.thread.cleanupTop == 0 && r.thread.altStack == 0
    ensures r.thread.joinState == JoinOnExit(t.joinState).1
    ensures |r.events| >= 3 && r.events[0] == CxaThreadFinalize && r.events[|r.events| - 1] == ExitThread
  {
    var (t1, alt) := ReleaseAltStack(t.(returnValue := retval, cleanupTop := 0));
    var (found, js) := JoinOnExit(t.joinState);
    ExitResult(t1.(joinState := js),
               [CxaThreadFinalize] + HandlerRuns(frames, cs) + [KeyCleanAll] + alt + Teardown(p, t, found, v))
  }

  /** `pthread_exit`, with the drain loop and the compare-exchange loop
      written out as loops: it does what `ExitOf` describes, in either
      version of the exit path. */
  method Exit(p: Platform, t: Thread, frames: map<nat, Frame>, ghost cs: seq<nat>, retval: nat, spurious: seq<bool>,
              v: ExitVersion)
    returns (r: Thread, events: seq<Event>)
    requires IsChain(frames, t.cleanupTop, cs)
    ensures forall i :: 0 <= i < |cs| ==> cs[i] in frames
    ensures ExitResult(r, events) == ExitOf(p, t, frames, cs, retval, v)
  {
    r := t.(returnValue := retval);
    var top, ran := Drain(CleanupStack(t.cleanupTop, frames), cs);
    r := r.(cleanupTop := top);
    var alt := [];
    if r.altStack != 0 {
      alt := [SigAltStackDisable, Munmap(r.altStack, SIGNAL_STACK_SIZE)];
      r := r.(altStack := 0);
    }
    assert (r, alt) == ReleaseAltStack(t.(returnValue := retval, cleanupTop := 0));
    var found, js := ExitJoinCas(r.joinState, spurious);
    r := r.(joinState := js);
    var tls := [];
    if v == AsWritten {
      tls := [UnmapBionicTls(BionicTlsAddr(p, t) - PTHREAD_GUARD_SIZE, p.bionicTlsSize + 2 * PTHREAD_GUARD_SIZE)];
    }
    var tail := tls + [ExitThread];
    if found == Detached {
      var base := if v == AsWritten then t.attr.stackBase else t.mmapBase;
      if t.mmapSize != 0 {
        tail := [ClearTidAddress, Unregister(t.addr)] + tls
                + [Munmap(t.addr, p.threadStructSize), Munmap(base, t.mmapSize), ExitThread];
      } else {
        tail := [ClearTidAddress, Unregister(t.addr)] + tls + [ExitThread];
      }
    }
    assert tail == Teardown(p, t, found, v);
    events := [CxaThreadFinalize] + ran + [KeyCleanAll] + alt + tail;
  }

  /** The calls of `pthread_exit` in order: thread-local destructors, the
      cleanup handlers, the key destructors, the release of the signal
      stack, the teardown. */
  lemma ExitEvents(p: Platform, t: Thread, frames: map<nat, Frame>, cs: seq<nat>, retval: nat, v: ExitVersion)
    requires forall i :: 0 <= i < |cs| ==> cs[i] in frames
    ensures ExitOf(p, t, frames, cs, retval, v).events
              == [CxaThreadFinalize] + HandlerRuns(frames, cs) + [KeyCleanAll]
                 + ReleaseAltStack(t).1 + Teardown(p, t, t.joinState, v)
  {
    assert ReleaseAltStack(t.(returnValue := retval, cleanupTop := 0)).1 == ReleaseAltStack(t).1;
  }

  /** The teardown's only registry call is its second one, right after the
      tid address is cleared, and a thread that found itself detached makes
      it; a thread that did not clears nothing. */
  lemma TeardownUnregisters(p: Platform, t: Thread, found: JoinState, v: ExitVersion)
    ensures var tail := Teardown(p, t, found, v);
            && (forall i :: 0 <= i < |tail| && tail[i].Unregister? ==> i == 1 && found == Detached)
            && (found == Detached ==> |tail| > 1 && tail[0] == ClearTidAddress && tail[1] == Unregister(t.addr))
            && (forall i :: 0 <= i < |tail| && tail[i] == ClearTidAddress ==> i == 0 && found == Detached)
  {
    var tail := Teardown(p, t, found, v);
    var tls := UnmapTls(p, t, v);
    assert forall i :: 0 <= i < |tls| ==> tls[i].UnmapBionicTls?;
    if found == Detached {
      var rest := if t.mmapSize != 0
                  then [Munmap(t.addr, p.threadStructSize), Munmap(TeardownBase(t, v), t.mmapSize), ExitThread]
                  else [ExitThread];
      assert tail == [ClearTidAddress, Unregister(t.addr)] + tls + rest;
      forall i | 2 <= i < |tail|
        ensures !tail[i].Unregister?
      {
        if i < 2 + |tls| {
          assert tail[i] == tls[i - 2];
        } else {
          assert tail[i] == rest[i - 2 - |tls|];
        }
      }
    } else {
      assert tail == tls + [ExitThread];
    }
  }

  /** The order `pthread_exit` keeps: thread_local destructors first, then
      every cleanup handler once, most recent first, then the key
      destructors, and only after those the thread leaves the registry. */
  lemma ExitOrdering(p: Platform, t: Thread, frames: map<nat, Frame>, cs: seq<nat>, retval: nat, v: ExitVersion)
    requires forall i :: 0 <= i < |cs| ==> cs[i] in frames
    ensures var evs := ExitOf(p, t, frames, cs, retval, v).events;
            && |evs| > |cs| + 1
            && evs[1..|cs| + 1] == HandlerRuns(frames, cs)
            && evs[|cs| + 1] == KeyCleanAll
            && (forall i :: 0 <= i < |evs| && evs[i].Unregister? ==> |cs| + 1 < i)
            && (Unregister(t.addr) in evs <==> t.joinState == Detached)
  {
    ExitHandlersThenKeys(p, t, frames, cs, retval, v);
    ExitUnregistersLast(p, t, frames, cs, retval, v);
  }

  /** The handlers follow the thread_local destructors and precede the key
      destructors. */
  lemma ExitHandlersThenKeys(p: Platform, t: Thread, frames: map<nat, Frame>, cs: seq<nat>, retval: nat, v: ExitVersion)
    requires forall i :: 0 <= i < |cs| ==> cs[i] in frames
    ensures var evs := ExitOf(p, t, frames, cs, retval, v).events;
            && |evs| > |cs| + 1
            && evs[1..|cs| + 1] == HandlerRuns(frames, cs)
            && evs[|cs| + 1] == KeyCleanAll
  {
    var pre := [CxaThreadFinalize] + HandlerRuns(frames, cs) + [KeyCleanAll] + ReleaseAltStack(t).1;
    var tail := Teardown(p, t, t.joinState, v);
    ExitEvents(p, t, frames, cs, retval, v);
    ExitPrefix(t, frames, cs);
    assert ExitOf(p, t, frames, cs, retval, v).events == pre + tail;
  }

  /** The thread leaves the registry after the key destructors, and does so
      exactly when it was detached. */
  lemma ExitUnregistersLast(p: Platform, t: Thread, frames: map<nat, Frame>, cs: seq<nat>, retval: nat, v: ExitVersion)
    requires forall i :: 0 <= i < |cs| ==> cs[i] in frames
    ensures var evs := ExitOf(p, t, frames, cs, retval, v).events;
            && (forall i :: 0 <= i < |evs| && evs[i].Unregister? ==> |cs| + 1 < i)
            && (Unregister(t.addr) in evs <==> t.joinState == Detached)
  {
    var evs := ExitOf(p, t, frames, cs, retval, v).events;
    var pre := [CxaThreadFinalize] + HandlerRuns(frames, cs) + [KeyCleanAll] + ReleaseAltStack(t).1;
    var tail := Teardown(p, t, t.joinState, v);
    ExitEvents(p, t, frames, cs, retval, v);
    TeardownUnregisters(p, t, t.joinState, v);
    assert evs == pre + tail;
    ExitPrefix(t, frames, cs);
    UnregisterOnlyInTail(pre, tail);
    if t.joinState == Detached {
      assert evs[|pre| + 1] == Unregister(t.addr);
    }
  }

  /** The calls before the teardown: the handlers sit right after the
      thread_local destructors, the key destructors right after them, and
      none of them leaves the registry. */
  lemma ExitPrefix(t: Thread, frames: map<nat, Frame>, cs: seq<nat>)
    requires forall i :: 0 <= i < |cs| ==> cs[i] in frames
    ensures var pre := [CxaThreadFinalize] + HandlerRuns(frames, cs) + [KeyCleanAll] + ReleaseAltStack(t).1;
            && |pre| >= |cs| + 2 && pre[|cs| + 1] == KeyCleanAll && pre[1..|cs| + 1] == HandlerRuns(frames, cs)
            && (forall i :: 0 <= i < |pre| ==> !pre[i].Unregister?)
  {
    var runs := HandlerRuns(frames, cs);
    var calls := [CxaThreadFinalize] + runs + [KeyCleanAll];
    var pre := calls + ReleaseAltStack(t).1;
    CallsInert(frames, cs);
    assert pre[1..|cs| + 1] == runs;
    assert forall i :: 0 <= i < |pre| ==> !pre[i].Unregister?;
  }

  /** The calls before the signal stack's release touch neither memory nor
      the registry. */
  lemma CallsInert(frames: map<nat, Frame>, cs: seq<nat>)
    requires forall i :: 0 <= i < |cs| ==> cs[i] in frames
    ensures var calls := [CxaThreadFinalize] + HandlerRuns(frames, cs) + [KeyCleanAll];
            forall i :: 0 <= i < |calls| ==> !Touches(calls[i])
  {
    var runs := HandlerRuns(frames, cs);
    var calls := [CxaThreadFinalize] + runs + [KeyCleanAll];
    forall i | 0 <= i < |calls|
      ensures !Touches(calls[i])
    {
      if 0 < i <= |runs| {
        assert calls[i] == runs[i - 1];
      }
    }
  }

  /** Appending a teardown whose only registry call is its second to events
      with none puts that call right after them. */
  lemma UnregisterOnlyInTail(pre: seq<Event>, tail: seq<Event>)
    requires forall i :: 0 <= i < |pre| ==> !pre[i].Unregister?
    requires forall i :: 0 <= i < |tail| && tail[i].Unregister? ==> i == 1
    ensures forall i :: 0 <= i < |pre + tail| && (pre + tail)[i].Unregister? ==> i == |pre| + 1
  {
    forall i | 0 <= i < |pre + tail| && (pre + tail)[i].Unregister?
      ensures i == |pre| + 1
    {
      if i >= |pre| {
        assert (pre + tail)[i] == tail[i - |pre|];
      }
    }
  }

  /** The events before the teardown change nothing but the alternate
      signal stack. */
  lemma ExitLedgerSplit(p: Platform, t: Thread, frames: map<nat, Frame>, cs: seq<nat>, retval: nat, v: ExitVersion, l: Ledger)
    requires forall i :: 0 <= i < |cs| ==> cs[i] in frames
    ensures Apply(l, ExitOf(p, t, frames, cs, retval, v).events)
            == Apply(Apply(l, ReleaseAltStack(t).1), Teardown(p, t, t.joinState, v))
  {
    var alt := ReleaseAltStack(t).1;
    var tail := Teardown(p, t, t.joinState, v);
    var runs := HandlerRuns(frames, cs);
    var pre := [CxaThreadFinalize] + runs + [KeyCleanAll];
    ExitEvents(p, t, frames, cs, retval, v);
    assert pre + alt + tail == pre + (alt + tail);
    CallsInert(frames, cs);
    ApplyInertPrefix(l, pre, alt + tail);
    ApplyAppend(l, alt, tail);
  }

  /** Releasing the alternate signal stack unmaps exactly its bytes. */
  lemma AltStackReleaseLedger(t: Thread, l: Ledger)
    ensures Apply(l, ReleaseAltStack(t).1)
            == l.(mapped := l.mapped - AltStackBytes(t), writable := l.writable - AltStackBytes(t))
  {
    if t.altStack != 0 {
      ApplyTwo(l, ReleaseAltStack(t).1);
    }
  }

  /** A signal stack installed at thread start and released at exit leaves
      the ledger as it was. */
  lemma AltStackRoundTrip(t: Thread, rs: AltReplies, l: Ledger)
    requires WellFormed(l)
    requires t.altStack == 0
    requires rs.mmap != Some(0)
    requires MapsFresh(l, InitAlternateSignalStack(t, rs).1)
    ensures var (t1, evs) := InitAlternateSignalStack(t, rs);
            Apply(Apply(l, evs), ReleaseAltStack(t1).1) == l
  {
    var (t1, evs) := InitAlternateSignalStack(t, rs);
    AltStackLedger(t, rs, l);
    var l1 := Apply(l, evs);
    AltStackReleaseLedger(t1, l1);
    if Installed(rs) {
      UnmapRestores(l, l1, t1.altStack, SIGNAL_STACK_SIZE);
    }
  }

  /** The bytes the teardown unmaps: as written, the bionic TLS range on
      every path when its address is page aligned; for a detached thread with a mapping, the thread structure
      and `mmap_size` bytes from the teardown base. */
  function TeardownFreed(p: Platform, t: Thread, v: ExitVersion): set<nat> {
    TlsFreed(p, t, v)
    + (if t.joinState == Detached && t.mmapSize != 0
       then Span(t.addr, p.threadStructSize) + Span(TeardownBase(t, v), t.mmapSize)
       else {})
  }

  /** The bytes `pthread_exit` unmaps: the signal stack and the teardown's. */
  function ExitFreed(p: Platform, t: Thread, v: ExitVersion): set<nat> {
    AltStackBytes(t) + TeardownFreed(p, t, v)
  }

  lemma UnmapTlsLedger(p: Platform, t: Thread, v: ExitVersion, l: Ledger)
    ensures var gone := TlsFreed(p, t, v);
            Apply(l, UnmapTls(p, t, v)) == Ledger(l.mapped - gone, l.writable - gone, l.registry)
  {
    var evs := UnmapTls(p, t, v);
    if v == AsWritten {
      assert Apply(l, evs) == Apply(Step(l, evs[0]), evs[1..]);
    } else {
      assert l.mapped - {} == l.mapped && l.writable - {} == l.writable;
    }
  }

  /** The teardown, as it changes the ledger: it unmaps exactly the bytes
      `TeardownFreed` names, and a detached thread leaves the registry. */
  lemma {:induction false} TeardownLedger(p: Platform, t: Thread, v: ExitVersion, l: Ledger)
    ensures var F := TeardownFreed(p, t, v);
            Apply(l, Teardown(p, t, t.joinState, v))
              == Ledger(l.mapped - F, l.writable - F,
                        if t.joinState == Detached then l.registry - {t.addr} else l.registry)
  {
    var tls := UnmapTls(p, t, v);
    var TB := TlsFreed(p, t, v);
    var head := [ClearTidAddress, Unregister(t.addr)];
    if t.joinState == Detached {
      var rest := if t.mmapSize != 0
                  then [Munmap(t.addr, p.threadStructSize), Munmap(TeardownBase(t, v), t.mmapSize), ExitThread]
                  else [ExitThread];
      assert Teardown(p, t, t.joinState, v) == head + tls + rest;
      ApplyAppend(l, head + tls, rest);
      ApplyAppend(l, head, tls);
      ApplyTwo(l, head);
      var l1 := Apply(l, head);
      assert l1 == l.(registry := l.registry - {t.addr});
      UnmapTlsLedger(p, t, v, l1);
      var l2 := Apply(l1, tls);
      if t.mmapSize != 0 {
        ApplyStep3(l2, rest);
        var A := Span(t.addr, p.threadStructSize);
        var B := Span(TeardownBase(t, v), t.mmapSize);
        assert TeardownFreed(p, t, v) == TB + (A + B);
        assert ((l.mapped - TB) - A) - B == l.mapped - (TB + (A + B));
        assert ((l.writable - TB) - A) - B == l.writable - (TB + (A + B));
      } else {
        ApplyUntouched(l2, rest);
        assert TeardownFreed(p, t, v) == TB;
      }
    } else {
      ApplyAppend(l, tls, [ExitThread]);
      UnmapTlsLedger(p, t, v, l);
      ApplyUntouched(Apply(l, tls), [ExitThread]);
      assert TeardownFreed(p, t, v) == TB;
    }
  }

  /** With the thread structure inside the mapping, the corrected teardown
      unmaps exactly the mapping of a detached thread and nothing of a
      joinable one. */
  lemma CorrectedFreed(p: Platform, t: Thread)
    requires Span(t.addr, p.threadStructSize) <= Span(t.mmapBase, t.mmapSize)
    ensures TeardownFreed(p, t, Corrected)
              == if t.joinState == Detached then Span(t.mmapBase, t.mmapSize) else {}
  {
    if t.joinState == Detached && t.mmapSize == 0 {
      assert Span(t.mmapBase, t.mmapSize) == {};
    }
  }

  /** The memory and registry effect of `pthread_exit`: it unmaps the signal
      stack and the teardown's bytes; a detached thread leaves the registry,
      a joinable one stays in it for its joiner. */
  lemma {:induction false} ExitLedger(p: Platform, t: Thread, frames: map<nat, Frame>, cs: seq<nat>, retval: nat,
                                      v: ExitVersion, l: Ledger)
    requires forall i :: 0 <= i < |cs| ==> cs[i] in frames
    ensures var after := Apply(l, ExitOf(p, t, frames, cs, retval, v).events);
            var freed := ExitFreed(p, t, v);
            && after.mapped == l.mapped - freed
            && after.writable == l.writable - freed
            && after.registry == (if t.joinState == Detached then l.registry - {t.addr} else l.registry)
  {
    ExitLedgerSplit(p, t, frames, cs, retval, v, l);
    AltStackReleaseLedger(t, l);
    var l1 := Apply(l, ReleaseAltStack(t).1);
    TeardownLedger(p, t, v, l1);
    var A := AltStackBytes(t);
    var F := TeardownFreed(p, t, v);
    assert (l.mapped - A) - F == l.mapped - (A + F);
    assert (l.writable - A) - F == l.writable - (A + F);
  }

  /** The source's exit for a detached thread whose stack the caller
      supplied: `attr.stack_base` then names the caller's buffer, so the
      first byte of the thread's own mapping (its guard page) stays mapped
      after the thread is gone, while `mmap_size` bytes from the caller's
      buffer are unmapped. The corrected exit unmaps the whole mapping. */
  lemma AsWrittenTeardownLeaks(p: Platform, t: Thread, frames: map<nat, Frame>, cs: seq<nat>, retval: nat, l: Ledger)
    requires forall i :: 0 <= i < |cs| ==> cs[i] in frames
    requires t.joinState == Detached && t.mmapSize != 0
    // The mapping's first byte is mapped, lies below the thread structure
    // and outside the signal stack, and the `mmap_size` bytes from the
    // caller's buffer lie outside the mapping.
    requires t.mmapBase in l.mapped && t.mmapBase < t.addr
    requires t.mmapBase !in AltStackBytes(t)
    requires Span(t.attr.stackBase, t.mmapSize) !! Span(t.mmapBase, t.mmapSize)
    ensures var asWritten := Apply(l, ExitOf(p, t, frames, cs, retval, AsWritten).events);
            && t.mmapBase in asWritten.mapped
            && Span(t.attr.stackBase, t.mmapSize) !! asWritten.mapped
            && t.addr !in asWritten.registry
    ensures var corrected := Apply(l, ExitOf(p, t, frames, cs, retval, Corrected).events);
            Span(t.mmapBase, t.mmapSize) !! corrected.mapped
  {
    ExitLedger(p, t, frames, cs, retval, AsWritten, l);
    ExitLedger(p, t, frames, cs, retval, Corrected, l);
    assert t.mmapBase in Span(t.mmapBase, t.mmapSize);
    assert t.mmapBase !in ExitFreed(p, t, AsWritten);
  }
}

=== FILE: layout.dfy ===
/** `__allocate_thread_mapping`: sizing, reserving and carving a thread's
    single mapping. */
module Layout {
  import opened Wrappers
  import opened Machine
  import opened Effects

  /** The process-wide facts the create and exit paths read: the word width,
      the size of `pthread_internal_t`, the size of the static TLS layout,
      where in static TLS the layout puts the bionic_tls struct, and
      `BIONIC_TLS_SIZE`, the size `pthread_exit` believes that struct has. */
  datatype Platform = Platform(lp64: bool, threadStructSize: nat, staticTlsSize: nat,
                               bionicTlsOffset: nat, bionicTlsSize: nat) {
    predicate Valid() {
      && 0 < threadStructSize <= PAGE_SIZE && IsSize(lp64, staticTlsSize)
      // The layout places bionic_tls inside static TLS.
      && bionicTlsOffset < staticTlsSize
    }
  }

  /** Where the bookkeeping structure and static TLS live in a thread's
      mapping; all zero is the empty mapping the source returns on failure. */
  datatype ThreadMapping = ThreadMapping(
    mmapBase: nat, mmapSize: nat, stackBase: nat, stackTop: nat, staticTls: nat)

  const EmptyMapping := ThreadMapping(0, 0, 0, 0, 0)

  /** The mapping and the system calls made while producing it. */
  datatype MappingResult = MappingResult(mapping: ThreadMapping, events: seq<Event>)

  /** What the operating system and the random source answer during one
      allocation: the mmap result (None for MAP_FAILED), whether each of the
      two mprotect calls succeeds, and the two random draws. */
  datatype MapReplies = MapReplies(
    mmap: Option<nat>, stackProtectOk: bool, tlsProtectOk: bool, gapDraw: nat, topDraw: nat)

  /** A mapping mmap can return: page aligned and never the zero page. */
  predicate MmapReplyOk(rs: MapReplies) {
    rs.mmap.Some? ==> PAGE_SIZE <= rs.mmap.value && rs.mmap.value % PAGE_SIZE == 0
  }

  function ThreadPageSize(p: Platform): (r: nat)
    requires p.Valid()
    ensures r == PAGE_SIZE
  {
    PageAlign(p.lp64, p.threadStructSize)
  }

  /** The gap may grow to half the stack on LP64, a tenth otherwise. */
  function MaxGap(p: Platform, stackSize: nat): nat {
    if p.lp64 then stackSize / 2 else stackSize / 10
  }

  /** The bound `arc4random_uniform` receives: its parameter is a
      `uint32_t`, so on LP64 the size_t `max_gap_size` is cut to its low 32
      bits. */
  function DrawBound(p: Platform, stackSize: nat): nat {
    MaxGap(p, stackSize) % UINT32_LIMIT
  }

  /** The random gap above the stack, rounded up to whole pages. The draw is
      a `uint32_t` and `PAGE_SIZE` an int constant, so the rounding is done
      in 32 bits: a draw within one page of 2^32 rounds to 0. */
  function GapSize(p: Platform, stackSize: nat, draw: nat): (r: nat)
    requires UniformDraw(draw, DrawBound(p, stackSize))
    ensures r % PAGE_SIZE == 0 && r < UINT32_LIMIT
    ensures draw + PAGE_SIZE - 1 < UINT32_LIMIT ==> draw <= r < draw + PAGE_SIZE
    ensures draw + PAGE_SIZE - 1 >= UINT32_LIMIT ==> r == 0
    ensures r <= RoundUpPage(DrawBound(p, stackSize))
    ensures DrawBound(p, stackSize) < 2 ==> r == 0
  {
    PageAlignWrap(false, draw);
    RoundUpPageBounds(draw);
    RoundUpPageMonotone(draw, DrawBound(p, stackSize));
    PageAlign(false, draw)
  }

  /** The truncation of the bound in numbers: on a 32-bit target the bound is
      the tenth of the stack untouched; on LP64 an 8 GiB stack, whose half is
      exactly 2^32, gets no random gap at all. */
  lemma GapBoundTruncation(p: Platform, draw: nat)
    ensures !p.lp64 ==> forall s :: IsSize(false, s) ==> DrawBound(p, s) == MaxGap(p, s)
    ensures p.lp64 && UniformDraw(draw, DrawBound(p, 0x2_0000_0000)) ==>
              MaxGap(p, 0x2_0000_0000) == UINT32_LIMIT && GapSize(p, 0x2_0000_0000, draw) == 0
  {
  }

  /** The true sum of every region of the mapping, before page rounding. */
  function UnalignedSize(p: Platform, stackSize: nat, guardSize: nat, gap: nat): nat
    requires p.Valid()
  {
    stackSize + guardSize + gap + ThreadPageSize(p) + p.staticTlsSize + PTHREAD_GUARD_SIZE
  }

  /** The five checked additions and the page rounding: None when any of them
      leaves size_t, otherwise the page-rounded total. */
  function MappingSize(p: Platform, stackSize: nat, guardSize: nat, gap: nat): (r: Option<nat>)
    requires p.Valid()
    requires IsSize(p.lp64, stackSize) && IsSize(p.lp64, guardSize) && IsSize(p.lp64, gap)
    ensures UnalignedSize(p, stackSize, guardSize, gap) > SizeMax(p.lp64) ==> r.None?
    ensures r.None? <==> UnalignedSize(p, stackSize, guardSize, gap) + PAGE_SIZE - 1 > SizeMax(p.lp64)
    ensures r.Some? ==> r.value == RoundUpPage(UnalignedSize(p, stackSize, guardSize, gap))
    ensures r.Some? ==> r.value % PAGE_SIZE == 0
    ensures r.Some? ==> UnalignedSize(p, stackSize, guardSize, gap) <= r.value <= SizeMax(p.lp64)
  {
    var s1 :- CheckedAdd(p.lp64, stackSize, guardSize);
    var s2 :- CheckedAdd(p.lp64, s1, gap);
    var s3 :- CheckedAdd(p.lp64, s2, ThreadPageSize(p));
    var s4 :- CheckedAdd(p.lp64, s3, p.staticTlsSize);
    var s5 :- CheckedAdd(p.lp64, s4, PTHREAD_GUARD_SIZE);
    PageAlignWrap(p.lp64, s5);
    RoundUpPageBounds(s5);
    var aligned := PageAlign(p.lp64, s5);
    if aligned < s5 then None else Some(aligned)
  }

  /** The requirement on the allocator's inputs: sizes fit in size_t, the
      draws are ones arc4random_uniform can return, and mmap's answer is one
      the kernel can give. */
  predicate MappingInputsOk(p: Platform, stackSize: nat, guardSize: nat, rs: MapReplies) {
    && p.Valid()
    && IsSize(p.lp64, stackSize) && IsSize(p.lp64, guardSize)
    && UniformDraw(rs.gapDraw, DrawBound(p, stackSize))
    && UniformDraw(rs.topDraw, p.threadStructSize)
    && MmapReplyOk(rs)
  }

  /** `__allocate_thread_mapping(stack_size, stack_guard_size)`. */
  function AllocateThreadMapping(p: Platform, stackSize: nat, guardSize: nat, rs: MapReplies): (r: MappingResult)
    requires MappingInputsOk(p, stackSize, guardSize, rs)
    // Only a mapping with a base is a mapping: failure returns all zeros.
    ensures r.mapping.mmapBase == 0 <==> r.mapping == EmptyMapping
    // An overflowing size makes no system call at all.
    ensures MappingSize(p, stackSize, guardSize, GapSize(p, stackSize, rs.gapDraw)).None? ==>
              r.mapping == EmptyMapping && r.events == []
    ensures AllMemory(r.events)
    // Otherwise it fails exactly when mmap or one of the two mprotects does;
    // a failed mmap is the only call made.
    ensures r.mapping.mmapBase != 0 <==>
              && MappingSize(p, stackSize, guardSize, GapSize(p, stackSize, rs.gapDraw)).Some?
              && rs.mmap.Some? && rs.stackProtectOk && rs.tlsProtectOk
    ensures MappingSize(p, stackSize, guardSize, GapSize(p, stackSize, rs.gapDraw)).Some? && rs.mmap.None? ==>
              r.events == [MmapFailed(MappingSize(p, stackSize, guardSize, GapSize(p, stackSize, rs.gapDraw)).value)]
    ensures r.mapping.mmapBase != 0 ==>
              && r.mapping.mmapBase == rs.mmap.value
              && MappingSize(p, stackSize, guardSize, GapSize(p, stackSize, rs.gapDraw)) == Some(r.mapping.mmapSize)
              && r.mapping.stackBase == r.mapping.mmapBase
              && r.mapping.stackTop % STACK_ALIGN == 0
              && StackEnd(r.mapping.mmapBase, guardSize, stackSize) - p.threadStructSize - STACK_ALIGN
                   < r.mapping.stackTop <= StackEnd(r.mapping.mmapBase, guardSize, stackSize)
  {
    var gap := GapSize(p, stackSize, rs.gapDraw);
    match MappingSize(p, stackSize, guardSize, gap)
    case None => MappingResult(EmptyMapping, [])
    case Some(size) =>
      match rs.mmap
      case None => MappingResult(EmptyMapping, [MmapFailed(size)])
      case Some(space) =>
        var reserve := Mmap(space, size, false);
        var openStack := Mprotect(space + guardSize, stackSize, true, rs.stackProtectOk);
        if !rs.stackProtectOk then
          MappingResult(EmptyMapping, [reserve, openStack, Munmap(space, size)])
        else
          var thread := space + guardSize + stackSize + gap;
          var openTls := Mprotect(thread, ThreadPageSize(p) + p.staticTlsSize, true, rs.tlsProtectOk);
          if !rs.tlsProtectOk then
            MappingResult(EmptyMapping, [reserve, openStack, openTls, Munmap(space, size)])
          else
            var top := AlignDown16(StackEnd(space, guardSize, stackSize) - rs.topDraw);
            MappingResult(ThreadMapping(space, size, space, top, thread + ThreadPageSize(p)),
                          [reserve, openStack, openTls])
  }

  /** The first byte above the usable stack. */
  function StackEnd(space: nat, guardSize: nat, stackSize: nat): nat {
    space + guardSize + stackSize
  }

  // ---------------------------------------------------------------------------
  // The carving of the mapping into regions.

  datatype Piece = Piece(base: nat, len: nat) {
    function End(): nat { base + len }
    function Bytes(): set<nat> { Span(base, len) }
  }

  /** The six regions, low to high: stack guard, stack, random gap, thread
      page, static TLS, tail guard (the rest of the mapping). */
  function Carve(p: Platform, space: nat, size: nat, stackSize: nat, guardSize: nat, gap: nat): (r: seq<Piece>)
    requires p.Valid()
    requires UnalignedSize(p, stackSize, guardSize, gap) <= size
    ensures |r| == 6
  {
    var stackBase := space + guardSize;
    var gapBase := stackBase + stackSize;
    var thread := gapBase + gap;
    var tls := thread + ThreadPageSize(p);
    var tail := tls + p.staticTlsSize;
    [Piece(space, guardSize), Piece(stackBase, stackSize), Piece(gapBase, gap),
     Piece(thread, ThreadPageSize(p)), Piece(tls, p.staticTlsSize),
     Piece(tail, space + size - tail)]
  }

  /** Each piece starts where the previous one ends. */
  predicate Consecutive(ps: seq<Piece>) {
    forall i :: 0 <= i < |ps| - 1 ==> ps[i].End() == ps[i + 1].base
  }

  lemma {:induction false} ConsecutiveOrdered(ps: seq<Piece>, i: nat, j: nat)
    requires Consecutive(ps)
    requires i < j < |ps|
    ensures ps[i].End() <= ps[j].base
    decreases j - i
  {
    if i + 1 < j {
      ConsecutiveOrdered(ps, i + 1, j);
    }
  }

  lemma ConsecutiveDisjoint(ps: seq<Piece>)
    requires Consecutive(ps)
    ensures forall i, j :: 0 <= i < j < |ps| ==> ps[i].Bytes() !! ps[j].Bytes()
  {
    forall i, j | 0 <= i < j < |ps|
      ensures ps[i].Bytes() !! ps[j].Bytes()
    {
      ConsecutiveOrdered(ps, i, j);
    }
  }

  /** The mapping is carved in the documented order into pairwise disjoint
      regions that together fill it exactly, the tail guard keeping at least
      one guard page, and the thread page sitting right below static TLS. */
  lemma {:induction false} CarveLayout(p: Platform, stackSize: nat, guardSize: nat, rs: MapReplies)
    requires MappingInputsOk(p, stackSize, guardSize, rs)
    requires AllocateThreadMapping(p, stackSize, guardSize, rs).mapping.mmapBase != 0
    ensures var m := AllocateThreadMapping(p, stackSize, guardSize, rs).mapping;
            var ps := Carve(p, m.mmapBase, m.mmapSize, stackSize, guardSize, GapSize(p, stackSize, rs.gapDraw));
            && Consecutive(ps)
            && ps[0].base == m.mmapBase && ps[5].End() == m.mmapBase + m.mmapSize
            && (forall i, j :: 0 <= i < j < 6 ==> ps[i].Bytes() !! ps[j].Bytes())
            && (forall i :: 0 <= i < 6 ==> ps[i].Bytes() <= Span(m.mmapBase, m.mmapSize))
            && ps[5].len >= PTHREAD_GUARD_SIZE
            && ps[4].base == m.staticTls
            && ps[3].base == m.staticTls - ThreadPageSize(p)
  {
    var m := AllocateThreadMapping(p, stackSize, guardSize, rs).mapping;
    var gap := GapSize(p, stackSize, rs.gapDraw);
    var ps := Carve(p, m.mmapBase, m.mmapSize, stackSize, guardSize, gap);
    ConsecutiveDisjoint(ps);
    forall i | 0 <= i < 6
      ensures ps[i].Bytes() <= Span(m.mmapBase, m.mmapSize)
    {
      if i > 0 { ConsecutiveOrdered(ps, 0, i); }
      if i < 5 { ConsecutiveOrdered(ps, i, 5); }
    }
  }

  /** No mapping leaks: a failed allocation leaves the ledger exactly as it
      was, whichever step failed. */
  lemma MappingFailureNoLeak(p: Platform, stackSize: nat, guardSize: nat, rs: MapReplies, l: Ledger)
    requires MappingInputsOk(p, stackSize, guardSize, rs)
    requires WellFormed(l)
    requires MapsFresh(l, AllocateThreadMapping(p, stackSize, guardSize, rs).events)
    requires AllocateThreadMapping(p, stackSize, guardSize, rs).mapping.mmapBase == 0
    ensures Apply(l, AllocateThreadMapping(p, stackSize, guardSize, rs).events) == l
  {
    var r := AllocateThreadMapping(p, stackSize, guardSize, rs);
    var gap := GapSize(p, stackSize, rs.gapDraw);
    if MappingSize(p, stackSize, guardSize, gap).Some? && rs.mmap.Some? {
      var size := MappingSize(p, stackSize, guardSize, gap).value;
      var space := rs.mmap.value;
      var whole := Span(space, size);
      assert r.events[0] == Mmap(space, size, false);
      assert whole !! l.mapped;
      var l1 := Step(l, Mmap(space, size, false));
      assert l1.writable == l.writable;
      var l2 := Step(l1, Mprotect(space + guardSize, stackSize, true, rs.stackProtectOk));
      if !rs.stackProtectOk {
        assert l2 == l1;
        ApplyStep3(l, r.events);
      } else {
        var stack := Span(space + guardSize, stackSize);
        assert l2.writable == l.writable + stack * whole;
        var thread := space + guardSize + stackSize + gap;
        var tlsLen := ThreadPageSize(p) + p.staticTlsSize;
        assert (l.writable + stack * whole) - whole == l.writable;
        ApplyStep4(l, r.events);
      }
    }
  }

  /** A successful allocation adds exactly its mapping, writable only at the
      stack and at the thread page plus static TLS; the three guards stay
      inaccessible. */
  lemma MappingSuccessLedger(p: Platform, stackSize: nat, guardSize: nat, rs: MapReplies, l: Ledger)
    requires MappingInputsOk(p, stackSize, guardSize, rs)
    requires WellFormed(l)
    requires MapsFresh(l, AllocateThreadMapping(p, stackSize, guardSize, rs).events)
    requires AllocateThreadMapping(p, stackSize, guardSize, rs).mapping.mmapBase != 0
    ensures var r := AllocateThreadMapping(p, stackSize, guardSize, rs);
            var m := r.mapping;
            var ps := Carve(p, m.mmapBase, m.mmapSize, stackSize, guardSize, GapSize(p, stackSize, rs.gapDraw));
            && Apply(l, r.events).mapped == l.mapped + Span(m.mmapBase, m.mmapSize)
            && Apply(l, r.events).writable == l.writable + ps[1].Bytes() + Span(ps[3].base, ps[3].len + ps[4].len)
            && Apply(l, r.events).writable <= l.writable + Span(m.mmapBase, m.mmapSize)
            && Apply(l, r.events).registry == l.registry
            && Span(m.mmapBase, m.mmapSize) !! l.mapped
  {
    var r := AllocateThreadMapping(p, stackSize, guardSize, rs);
    var m := r.mapping;
    var gap := GapSize(p, stackSize, rs.gapDraw);
    var size := m.mmapSize;
    var space := m.mmapBase;
    var whole := Span(space, size);
    var stack := Span(space + guardSize, stackSize);
    var thread := space + guardSize + stackSize + gap;
    var tlsLen := ThreadPageSize(p) + p.staticTlsSize;
    CarveLayout(p, stackSize, guardSize, rs);
    assert stack <= whole;
    assert Span(thread, tlsLen) <= whole;
    assert r.events == [Mmap(space, size, false), Mprotect(space + guardSize, stackSize, true, true),
                        Mprotect(thread, tlsLen, true, true)];
    ApplyStep3(l, r.events);
  }
}

=== FILE: lifecycle.dfy ===
/** A thread's whole life as the ledger sees it: `pthread_create`, then the
    new thread's `__pthread_start` (wait for the creator, set up the
    additional stacks, run the start routine) and its `pthread_exit`. */
module Lifecycle {
  import opened Wrappers
  import opened Machine
  import opened Effects
  import opened Layout
  import opened ThreadTypes
  import opened Alloc
  import opened Create
  import opened AdditionalStacks
  import opened ThreadExit
  import Cleanup

  /** What the start routine hands to `pthread_exit`: the user routine's
      `result`, or null from `__do_nothing`. */
  function StartResult(t: Thread, result: nat): nat {
    match t.start
    case UserRoutine(_, _) => result
    case DoNothing => 0
  }

  /** The calls the start routine makes, as seen from outside it. */
  function StartEvents(t: Thread): seq<Event> {
    match t.start
    case UserRoutine(f, a) => [RunStartRoutine(f, a)]
    case DoNothing => []
  }

  /** `__pthread_start(thread)` through to the end of the thread. The user
      routine is taken to return `result` normally with its cleanup
      handlers popped, so the thread starts and exits with an empty cleanup
      stack; `v` says which exit path ends the thread. */
  function ChildRun(p: Platform, t: Thread, alt: AltReplies, result: nat, v: ExitVersion): (r: ExitResult)
    requires t.cleanupTop == 0
    ensures |r.events| > 0 && r.events[0] == LockAcquire
    ensures r.thread.returnValue == (if t.start == DoNothing then 0 else result)
  {
    var (t1, altEvs) := InitAlternateSignalStack(t, alt);
    var ex := ExitOf(p, t1, map[], [], StartResult(t, result), v);
    ExitResult(ex.thread, [LockAcquire] + altEvs + StartEvents(t) + ex.events)
  }

  /** No call of a start routine among the events. */
  predicate NoUserStart(evs: seq<Event>) {
    forall i :: 0 <= i < |evs| ==> !evs[i].RunStartRoutine?
  }

  lemma NoUserStartAppend(a: seq<Event>, b: seq<Event>)
    requires NoUserStart(a) && NoUserStart(b)
    ensures NoUserStart(a + b)
  {
    forall i | 0 <= i < |a + b|
      ensures !(a + b)[i].RunStartRoutine?
    {
      if i >= |a| {
        assert (a + b)[i] == b[i - |a|];
      }
    }
  }

  /** `pthread_exit` calls no start routine. */
  lemma ExitNoUserStart(p: Platform, t: Thread, ret: nat, v: ExitVersion)
    ensures NoUserStart(ExitOf(p, t, map[], [], ret, v).events)
  {
    ExitEvents(p, t, map[], [], ret, v);
    var calls := [CxaThreadFinalize] + Cleanup.HandlerRuns(map[], []) + [KeyCleanAll];
    assert calls == [CxaThreadFinalize, KeyCleanAll];
    var alt := ReleaseAltStack(t).1;
    TeardownNoUserStart(p, t, t.joinState, v);
    NoUserStartAppend(calls, alt);
    NoUserStartAppend(calls + alt, Teardown(p, t, t.joinState, v));
  }

  lemma TeardownNoUserStart(p: Platform, t: Thread, found: JoinState, v: ExitVersion)
    ensures NoUserStart(Teardown(p, t, found, v))
  {
    assert NoUserStart(UnmapTls(p, t, v));
  }

  /** A thread whose creation failed never runs user code; any other thread
      calls its own start routine exactly once and no other start routine. */
  lemma StartRoutineCalls(p: Platform, t: Thread, alt: AltReplies, result: nat, v: ExitVersion)
    requires t.cleanupTop == 0
    ensures t.start == DoNothing ==> NoUserStart(ChildRun(p, t, alt, result, v).events)
    ensures t.start.UserRoutine? ==>
              var evs := ChildRun(p, t, alt, result, v).events;
              exists k :: 0 <= k < |evs| && evs[k] == RunStartRoutine(t.start.fn, t.start.arg)
                          && forall i :: 0 <= i < |evs| && i != k ==> !evs[i].RunStartRoutine?
  {
    var (t1, altEvs) := InitAlternateSignalStack(t, alt);
    var ex := ExitOf(p, t1, map[], [], StartResult(t, result), v);
    var evs := ChildRun(p, t, alt, result, v).events;
    var pre := [LockAcquire] + altEvs;
    assert evs == pre + StartEvents(t) + ex.events;
    assert NoUserStart(altEvs);
    NoUserStartAppend([LockAcquire], altEvs);
    ExitNoUserStart(p, t1, StartResult(t, result), v);
    if t.start == DoNothing {
      assert pre + StartEvents(t) == pre;
      NoUserStartAppend(pre, ex.events);
    } else {
      var k := |pre|;
      assert evs[k] == RunStartRoutine(t.start.fn, t.start.arg);
      forall i | 0 <= i < |evs| && i != k
        ensures !evs[i].RunStartRoutine?
      {
        if i < k {
          assert evs[i] == pre[i];
        } else {
          assert evs[i] == ex.events[i - k - 1];
        }
      }
    }
  }

  /** Only the signal-stack setup and the exit change the ledger. */
  lemma ChildSplit(p: Platform, t: Thread, alt: AltReplies, result: nat, v: ExitVersion, l: Ledger)
    requires t.cleanupTop == 0
    ensures var (t1, altEvs) := InitAlternateSignalStack(t, alt);
            Apply(l, ChildRun(p, t, alt, result, v).events)
              == Apply(Apply(l, altEvs), ExitOf(p, t1, map[], [], StartResult(t, result), v).events)
  {
    var (t1, altEvs) := InitAlternateSignalStack(t, alt);
    var exEvs := ExitOf(p, t1, map[], [], StartResult(t, result), v).events;
    assert ChildRun(p, t, alt, result, v).events == [LockAcquire] + altEvs + StartEvents(t) + exEvs;
    ApplySkipping(l, [LockAcquire], altEvs, StartEvents(t), exEvs);
  }

  /** The ledger effect of a thread's run: the signal stack it sets up is
      gone again, the teardown's bytes (`TeardownFreed`) are unmapped, and a
      detached thread leaves the registry while a joinable one stays for
      its joiner. */
  lemma {:induction false} ChildLedger(p: Platform, t: Thread, alt: AltReplies, result: nat, v: ExitVersion, l: Ledger)
    requires t.cleanupTop == 0
    requires WellFormed(l)
    requires t.altStack == 0 && alt.mmap != Some(0)
    requires MapsFresh(l, InitAlternateSignalStack(t, alt).1)
    ensures var after := Apply(l, ChildRun(p, t, alt, result, v).events);
            var F := TeardownFreed(p, t, v);
            after == Ledger(l.mapped - F, l.writable - F,
                            if t.joinState == Detached then l.registry - {t.addr} else l.registry)
  {
    var (t1, altEvs) := InitAlternateSignalStack(t, alt);
    ChildSplit(p, t, alt, result, v, l);
    var l2 := Apply(l, altEvs);
    ExitLedger(p, t1, map[], [], StartResult(t, result), v, l2);
    SameTeardown(p, t, t1, v);
    AltStackThenTeardown(t, alt, TeardownFreed(p, t, v), l);
  }

  /** The signal stack `__init_alternate_signal_stack` sets up, released
      together with other bytes `F`, leaves only `F` unmapped. */
  lemma AltStackThenTeardown(t: Thread, alt: AltReplies, F: set<nat>, l: Ledger)
    requires WellFormed(l)
    requires t.altStack == 0 && alt.mmap != Some(0)
    requires MapsFresh(l, InitAlternateSignalStack(t, alt).1)
    ensures var (t1, evs) := InitAlternateSignalStack(t, alt);
            var l2 := Apply(l, evs);
            && l2.registry == l.registry
            && l2.mapped - (AltStackBytes(t1) + F) == l.mapped - F
            && l2.writable - (AltStackBytes(t1) + F) == l.writable - F
  {
    var (t1, altEvs) := InitAlternateSignalStack(t, alt);
    AltStackLedger(t, alt, l);
    var l2 := Apply(l, altEvs);
    var A := AltStackBytes(t1);
    var usable := if Installed(alt) then Span(t1.altStack + PTHREAD_GUARD_SIZE, SIGNAL_STACK_SIZE - PTHREAD_GUARD_SIZE) else {};
    if Installed(alt) {
      assert usable <= A;
    }
    SetUpThenReleased(l, l2, Ledger(l2.mapped - (A + F), l2.writable - (A + F), l.registry), A, usable, F, l.registry);
  }

  /** Only the signal stack differs between the thread before and after
      `__init_alternate_signal_stack`, and the teardown does not look at it. */
  lemma SameTeardown(p: Platform, t: Thread, t1: Thread, v: ExitVersion)
    requires t1 == t.(altStack := t1.altStack)
    ensures TeardownFreed(p, t1, v) == TeardownFreed(p, t, v)
    ensures t1.joinState == t.joinState && t1.addr == t.addr
  {
    assert BionicTlsBytes(p, t1) == BionicTlsBytes(p, t);
  }

  /** A signal stack that is either absent or freshly mapped, then released
      with the teardown's bytes, leaves only the teardown's bytes unmapped. */
  lemma SetUpThenReleased(l: Ledger, l2: Ledger, after: Ledger, A: set<nat>, usable: set<nat>, F: set<nat>,
                          registry: set<nat>)
    requires WellFormed(l)
    requires A == {} ==> l2 == l
    requires A != {} ==> A !! l.mapped && usable <= A && l2 == Ledger(l.mapped + A, l.writable + usable, l.registry)
    requires after == Ledger(l2.mapped - (A + F), l2.writable - (A + F), registry)
    ensures after == Ledger(l.mapped - F, l.writable - F, registry)
  {
    if A == {} {
      assert A + F == F;
    } else {
      AddedThenRemoved(l, l2, A, usable, F);
    }
  }

  /** Mapping fresh bytes and later unmapping them together with others
      leaves only the others unmapped. */
  lemma AddedThenRemoved(l: Ledger, l2: Ledger, A: set<nat>, usable: set<nat>, F: set<nat>)
    requires WellFormed(l) && A !! l.mapped && usable <= A
    requires l2 == Ledger(l.mapped + A, l.writable + usable, l.registry)
    ensures l2.mapped - (A + F) == l.mapped - F && l2.writable - (A + F) == l.writable - F
  {
  }

  /** A detached thread, or one whose creation failed after clone, hands
      back everything its creation took once it has run and left through
      the corrected exit path: the ledger is the one from before
      `pthread_create`. */
  lemma DetachedLifecycleReclaims(p: Platform, attr: Option<Attr>, defaults: Attr, routine: nat, arg: nat,
                                  rs: CreateReplies, alt: AltReplies, result: nat, l: Ledger)
    requires CreateInputsOk(p, attr, defaults, rs)
    requires WellFormed(l) && l.registry <= l.mapped
    requires MapsFresh(l, Create.Create(p, attr, defaults, routine, arg, rs).events)
    requires Create.Create(p, attr, defaults, routine, arg, rs).stage in {Cloned, Published}
    requires Create.Create(p, attr, defaults, routine, arg, rs).thread.value.joinState == Detached
    requires alt.mmap != Some(0)
    requires var c := Create.Create(p, attr, defaults, routine, arg, rs);
             MapsFresh(Apply(l, c.events), InitAlternateSignalStack(c.thread.value, alt).1)
    ensures var c := Create.Create(p, attr, defaults, routine, arg, rs);
            Apply(Apply(l, c.events), ChildRun(p, c.thread.value, alt, result, Corrected).events) == l
  {
    var c := Create.Create(p, attr, defaults, routine, arg, rs);
    var t := c.thread.value;
    CreateClonedLedger(p, attr, defaults, routine, arg, rs, l);
    CreatedThreadPlacement(p, attr, defaults, routine, arg, rs);
    var l1 := Apply(l, c.events);
    ChildLedger(p, t, alt, result, Corrected, l1);
    CorrectedFreed(p, t);
    ReclaimAlgebra(l, l1, Span(t.mmapBase, t.mmapSize), t.addr, p.threadStructSize);
  }

  /** Taking a fresh region and one registration back out of a ledger that
      gained them gives the original ledger. */
  lemma ReclaimAlgebra(l: Ledger, l1: Ledger, S: set<nat>, a: nat, n: nat)
    requires WellFormed(l) && l.registry <= l.mapped
    requires S !! l.mapped && l1.mapped == l.mapped + S
    requires l.writable <= l1.writable <= l.writable + S
    requires l1.registry == l.registry + {a}
    requires 0 < n && Span(a, n) <= S
    ensures Ledger(l1.mapped - S, l1.writable - S, l1.registry - {a}) == l
  {
    assert a in Span(a, n);
    assert l1.mapped - S == l.mapped;
    assert l1.writable - S == l.writable;
    assert l1.registry - {a} == l.registry;
  }

  /** A published joinable thread that has left through the corrected exit
      path is still registered, its mapping whole, in the state the joiner
      waits for. */
  lemma JoinableExitAwaitsJoin(p: Platform, attr: Option<Attr>, defaults: Attr, routine: nat, arg: nat,
                               rs: CreateReplies, alt: AltReplies, result: nat, l: Ledger,
                               c: CreateResult, t: Thread)
    requires CreateInputsOk(p, attr, defaults, rs)
    requires c == Create.Create(p, attr, defaults, routine, arg, rs)
    requires WellFormed(l) && MapsFresh(l, c.events)
    requires c.stage == Published && c.thread == Some(t)
    requires !AttrUsed(attr, defaults).flags.detached
    requires alt.mmap != Some(0)
    requires MapsFresh(Apply(l, c.events), InitAlternateSignalStack(t, alt).1)
    ensures var child := ChildRun(p, t, alt, result, Corrected);
            && child.thread.joinState == ExitedNotJoined
            && child.thread.returnValue == result
            && Apply(Apply(l, c.events), child.events).mapped == l.mapped + Span(t.mmapBase, t.mmapSize)
            && Apply(Apply(l, c.events), child.events).registry == l.registry + {t.addr}
  {
    CreateClonedLedger(p, attr, defaults, routine, arg, rs, l);
    CreatedThreadPlacement(p, attr, defaults, routine, arg, rs);
    var l1 := Apply(l, c.events);
    JoinableChild(p, t, alt, result, Corrected, l1);
  }

  /** The same run on the source as written: the thread is registered and
      waits for its joiner, and the byte at `thread->bionic_tls`, which
      `pthread_create` mapped as part of the thread's mapping, is no longer
      mapped exactly when `__pthread_unmap_tls` got a page-aligned address.
      Then the joiner finds the mapping partly unmapped; otherwise the munmap
      fails and the mapping is whole. */
  lemma JoinableAsWrittenUnmapsTls(p: Platform, attr: Option<Attr>, defaults: Attr, routine: nat, arg: nat,
                                   rs: CreateReplies, alt: AltReplies, result: nat, l: Ledger,
                                   c: CreateResult, t: Thread)
    requires CreateInputsOk(p, attr, defaults, rs)
    requires c == Create.Create(p, attr, defaults, routine, arg, rs)
    requires WellFormed(l) && MapsFresh(l, c.events)
    requires c.stage == Published && c.thread == Some(t)
    requires !AttrUsed(attr, defaults).flags.detached
    requires alt.mmap != Some(0)
    requires MapsFresh(Apply(l, c.events), InitAlternateSignalStack(t, alt).1)
    ensures var child := ChildRun(p, t, alt, result, AsWritten);
            var after := Apply(Apply(l, c.events), child.events);
            && BionicTlsAddr(p, t) in Span(t.mmapBase, t.mmapSize)
            && BionicTlsAddr(p, t) in Apply(l, c.events).mapped
            && child.thread.joinState == ExitedNotJoined
            && t.addr in after.registry
            && (BionicTlsAddr(p, t) !in after.mapped <==> TlsUnmapAligned(p, t))
            && (!TlsUnmapAligned(p, t) ==> after.mapped == l.mapped + Span(t.mmapBase, t.mmapSize))
  {
    CreateClonedLedger(p, attr, defaults, routine, arg, rs, l);
    CreatedThreadPlacement(p, attr, defaults, routine, arg, rs);
    BionicTlsInMapping(p, t);
    JoinableChild(p, t, alt, result, AsWritten, Apply(l, c.events));
  }

  /** For a thread `pthread_create` made with a page-multiple stack request
      (any caller-supplied stack, or an allocated stack of whole pages),
      `__pthread_unmap_tls` gets a page-aligned address exactly when the
      bionic_tls offset in static TLS is a page multiple. */
  lemma TlsUnmapAlignment(p: Platform, attr: Option<Attr>, defaults: Attr, routine: nat, arg: nat,
                          rs: CreateReplies, t: Thread)
    requires CreateInputsOk(p, attr, defaults, rs)
    requires Create.Create(p, attr, defaults, routine, arg, rs).thread == Some(t)
    requires RequestedStack(AttrUsed(attr, defaults)) % PAGE_SIZE == 0
    ensures TlsUnmapAligned(p, t) <==> p.bionicTlsOffset % PAGE_SIZE == 0
  {
    CreatedThreadPlacement(p, attr, defaults, routine, arg, rs);
    ThreadPageAligned(p, AttrUsed(attr, defaults), rs.mapping);
    assert BionicTlsAddr(p, t) - PTHREAD_GUARD_SIZE == t.addr + p.bionicTlsOffset;
    OffsetFromPage(t.addr, p.bionicTlsOffset);
  }

  lemma OffsetFromPage(a: nat, off: nat)
    requires a % PAGE_SIZE == 0
    ensures (a + off) % PAGE_SIZE == 0 <==> off % PAGE_SIZE == 0
  {
  }

  /** The run of a joinable thread that calls its start routine: it ends
      exited but not joined, with the routine's result, still registered,
      and with the teardown's bytes unmapped: the bionic TLS range when the
      source as written unmaps it, and nothing otherwise. */
  lemma JoinableChild(p: Platform, t: Thread, alt: AltReplies, result: nat, v: ExitVersion, l: Ledger)
    requires t.cleanupTop == 0
    requires WellFormed(l)
    requires t.altStack == 0 && alt.mmap != Some(0)
    requires t.joinState == NotJoined && t.start.UserRoutine?
    requires MapsFresh(l, InitAlternateSignalStack(t, alt).1)
    ensures var child := ChildRun(p, t, alt, result, v);
            var after := Apply(l, child.events);
            var F := TeardownFreed(p, t, v);
            && child.thread.joinState == ExitedNotJoined
            && child.thread.returnValue == result
            && after == Ledger(l.mapped - F, l.writable - F, l.registry)
            && F == TlsFreed(p, t, v)
            && (F == {} ==> after == l)
            && (F != {} ==> BionicTlsAddr(p, t) !in after.mapped)
  {
    ChildLedger(p, t, alt, result, v, l);
    if TlsFreed(p, t, v) != {} {
      assert BionicTlsAddr(p, t) in BionicTlsBytes(p, t);
    }
  }

  /** `thread->bionic_tls` lies inside the thread's mapping once the thread
      page and the static TLS that follows it do. */
  lemma BionicTlsInMapping(p: Platform, t: Thread)
    requires p.Valid()
    requires t.mmapBase <= t.addr
    requires t.addr + PAGE_SIZE + p.staticTlsSize + PTHREAD_GUARD_SIZE <= t.mmapBase + t.mmapSize
    ensures BionicTlsAddr(p, t) in Span(t.mmapBase, t.mmapSize)
  {
  }

  /** With a stack `pthread_create` allocated, the attributes' stack base is
      the mapping's base, so the two exit paths unmap the same bytes but for
      the bionic TLS range, which only the source as written unmaps (when
      its address is page aligned). */
  lemma AllocatedStackTeardownAgrees(p: Platform, attr: Option<Attr>, defaults: Attr, routine: nat, arg: nat,
                                     rs: CreateReplies)
    requires CreateInputsOk(p, attr, defaults, rs)
    requires AttrUsed(attr, defaults).stackBase == 0
    ensures var c := Create.Create(p, attr, defaults, routine, arg, rs);
            c.thread.Some? ==>
              && c.thread.value.attr.stackBase == c.thread.value.mmapBase
              && TeardownFreed(p, c.thread.value, AsWritten)
                   == TeardownFreed(p, c.thread.value, Corrected) + TlsFreed(p, c.thread.value, AsWritten)
  {
    var c := Create.Create(p, attr, defaults, routine, arg, rs);
    if c.thread.Some? {
      CreatedThreadPlacement(p, attr, defaults, routine, arg, rs);
      AllocatedStack(p, AttrUsed(attr, defaults), rs.mapping);
      assert TeardownBase(c.thread.value, AsWritten) == TeardownBase(c.thread.value, Corrected);
    }
  }

  /** The source's exit applied to a detached thread created on a
      caller-supplied stack: after the thread has gone, the first byte of
      the mapping `pthread_create` made for it is still mapped, and
      `mmap_size` bytes from the caller's buffer are no longer mapped.
      `DetachedLifecycleReclaims` is the same run on the corrected exit
      path. */
  lemma CallerStackDetachedExitLeaks(p: Platform, attr: Option<Attr>, defaults: Attr, routine: nat, arg: nat,
                                     rs: CreateReplies, alt: AltReplies, result: nat, l: Ledger,
                                     c: CreateResult, t: Thread)
    requires CreateInputsOk(p, attr, defaults, rs)
    requires c == Create.Create(p, attr, defaults, routine, arg, rs)
    requires WellFormed(l) && MapsFresh(l, c.events)
    requires c.stage in {Cloned, Published} && c.thread == Some(t) && t.joinState == Detached
    requires alt.mmap != Some(0)
    // The caller supplies the stack, and the `mmap_size` bytes from its
    // base are memory the caller has mapped.
    requires AttrUsed(attr, defaults).stackBase != 0
    requires Span(AttrUsed(attr, defaults).stackBase, t.mmapSize) <= l.mapped
    requires MapsFresh(Apply(l, c.events), InitAlternateSignalStack(t, alt).1)
    ensures t.attr.stackBase == AttrUsed(attr, defaults).stackBase
    ensures var asWritten := Apply(Apply(l, c.events), ChildRun(p, t, alt, result, AsWritten).events);
            && t.mmapBase !in l.mapped
            && t.mmapBase in asWritten.mapped
            && Span(t.attr.stackBase, t.mmapSize) !! asWritten.mapped
  {
    var l1 := Apply(l, c.events);
    CallerStackCreated(p, attr, defaults, routine, arg, rs, l);
    FreshRegionStart(l.mapped, l1.mapped, t.mmapBase, t.mmapSize, Span(t.attr.stackBase, t.mmapSize));
    ChildAsWrittenLeaks(p, t, alt, result, l1);
  }

  /** The first byte of a fresh region is newly mapped, and memory mapped
      before lies outside the region. */
  lemma FreshRegionStart(before: set<nat>, after: set<nat>, base: nat, size: nat, u: set<nat>)
    requires size > 0
    requires Span(base, size) !! before && after == before + Span(base, size)
    requires u <= before
    ensures base in after && base !in before
    ensures u !! Span(base, size)
  {
    assert base in Span(base, size);
  }

  /** The child half of `CallerStackDetachedExitLeaks`. */
  lemma ChildAsWrittenLeaks(p: Platform, t: Thread, alt: AltReplies, result: nat, l: Ledger)
    requires t.cleanupTop == 0
    requires WellFormed(l)
    requires t.joinState == Detached && t.mmapSize != 0 && t.altStack == 0 && alt.mmap != Some(0)
    requires MapsFresh(l, InitAlternateSignalStack(t, alt).1)
    requires t.mmapBase in l.mapped && t.mmapBase < t.addr
    requires Span(t.attr.stackBase, t.mmapSize) !! Span(t.mmapBase, t.mmapSize)
    ensures var after := Apply(l, ChildRun(p, t, alt, result, AsWritten).events);
            && t.mmapBase in after.mapped
            && Span(t.attr.stackBase, t.mmapSize) !! after.mapped
  {
    ChildLedger(p, t, alt, result, AsWritten, l);
    assert t.mmapBase in Span(t.mmapBase, t.mmapSize);
    assert t.mmapBase !in TeardownFreed(p, t, AsWritten);
  }

  /** What the creation half of `CallerStackDetachedExitLeaks` needs. */
  lemma CallerStackCreated(p: Platform, attr: Option<Attr>, defaults: Attr, routine: nat, arg: nat,
                           rs: CreateReplies, l: Ledger)
    requires CreateInputsOk(p, attr, defaults, rs)
    requires WellFormed(l)
    requires MapsFresh(l, Create.Create(p, attr, defaults, routine, arg, rs).events)
    requires Create.Create(p, attr, defaults, routine, arg, rs).stage in {Cloned, Published}
    requires AttrUsed(attr, defaults).stackBase != 0
    ensures var c := Create.Create(p, attr, defaults, routine, arg, rs);
            var t := c.thread.value;
            var l1 := Apply(l, c.events);
            && WellFormed(l1) && t.mmapSize > 0 && t.altStack == 0
            && Span(t.mmapBase, t.mmapSize) !! l.mapped
            && l1.mapped == l.mapped + Span(t.mmapBase, t.mmapSize)
            && t.mmapBase < t.addr
            && t.attr.stackBase == AttrUsed(attr, defaults).stackBase
  {
    CreateClonedLedger(p, attr, defaults, routine, arg, rs, l);
    CreatedThreadPlacement(p, attr, defaults, routine, arg, rs);
    CallerStack(p, AttrUsed(attr, defaults), rs.mapping);
  }
}

=== FILE: machine.dfy ===
/** Machine words, page alignment and the bounded draws that stand in for
    arc4random_uniform. */
module Machine {
  import opened Wrappers

  const PAGE_SIZE: nat := 4096
  /** One guard page, as pthread_internal.h defines it. */
  const PTHREAD_GUARD_SIZE: nat := PAGE_SIZE
  /** Required alignment of a thread's initial stack pointer. */
  const STACK_ALIGN: nat := 16
  const EAGAIN: int := 11

  /** Number of distinct addresses: 2^64 on LP64 targets, 2^32 otherwise. */
  function AddressSpace(lp64: bool): nat {
    if lp64 then 0x1_0000_0000_0000_0000 else 0x1_0000_0000
  }

  function SizeMax(lp64: bool): nat {
    AddressSpace(lp64) - 1
  }

  /** x is representable as a size_t. */
  predicate IsSize(lp64: bool, x: int) {
    0 <= x <= SizeMax(lp64)
  }

  /** The smallest page multiple at or above v, in unbounded arithmetic. */
  function RoundUpPage(v: nat): nat {
    (v + PAGE_SIZE - 1) / PAGE_SIZE * PAGE_SIZE
  }

  /** `__BIONIC_ALIGN(v, PAGE_SIZE)`, i.e. `(v + PAGE_SIZE - 1) & ~(PAGE_SIZE - 1)`
      evaluated in size_t: the addition wraps modulo 2^W, and because PAGE_SIZE
      is a power of two dividing 2^W the mask clears exactly `t % PAGE_SIZE`. */
  function PageAlign(lp64: bool, v: nat): nat
    requires IsSize(lp64, v)
  {
    var t := (v + PAGE_SIZE - 1) % AddressSpace(lp64);
    t - t % PAGE_SIZE
  }

  /** `__BIONIC_ALIGN_DOWN(v, 16)`. */
  function AlignDown16(v: nat): (r: nat)
    ensures r % STACK_ALIGN == 0
    ensures v - STACK_ALIGN < r <= v
  {
    v - v % STACK_ALIGN
  }

  /** `__builtin_add_overflow` on size_t: None exactly when the true sum does
      not fit. Seen from the machine, that is when the wrapped sum comes out
      below the first operand, and otherwise the wrapped sum is the result. */
  function CheckedAdd(lp64: bool, a: nat, b: nat): (r: Option<nat>)
    requires IsSize(lp64, a) && IsSize(lp64, b)
    ensures r.None? <==> (a + b) % AddressSpace(lp64) < a
    ensures r.Some? ==> r.value == (a + b) % AddressSpace(lp64) == a + b && IsSize(lp64, r.value)
  {
    if a + b <= SizeMax(lp64) then Some(a + b) else None
  }

  /** The unsigned 32-bit range: `uint32_t` values are below this. */
  const UINT32_LIMIT: nat := 0x1_0000_0000

  /** r is a value `arc4random_uniform(upper)` can return: 0 when upper < 2,
      otherwise some value below upper. */
  predicate UniformDraw(r: nat, upper: nat) {
    if upper < 2 then r == 0 else r < upper
  }

  /** Page rounding in size_t either yields the true round-up, or wraps to a
      value below its input; the second happens exactly when the true sum
      `v + PAGE_SIZE - 1` does not fit. So `aligned < unaligned` is an exact
      wrap test. */
  lemma PageAlignWrap(lp64: bool, v: nat)
    requires IsSize(lp64, v)
    ensures PageAlign(lp64, v) < v <==> v + PAGE_SIZE - 1 > SizeMax(lp64)
    ensures v + PAGE_SIZE - 1 <= SizeMax(lp64) ==> PageAlign(lp64, v) == RoundUpPage(v)
    ensures v + PAGE_SIZE - 1 > SizeMax(lp64) ==> PageAlign(lp64, v) == 0
  {
    var m := AddressSpace(lp64);
    var t := v + PAGE_SIZE - 1;
    if t <= SizeMax(lp64) {
      assert t % m == t;
      RoundUpPageBounds(v);
      assert t - t % PAGE_SIZE == t / PAGE_SIZE * PAGE_SIZE;
    } else {
      assert t % m == t - m;
      assert t - m < PAGE_SIZE;
      assert (t - m) % PAGE_SIZE == t - m;
    }
  }

  /** The round-up is a page multiple within one page above its input. */
  lemma RoundUpPageBounds(v: nat)
    ensures RoundUpPage(v) % PAGE_SIZE == 0
    ensures v <= RoundUpPage(v) < v + PAGE_SIZE
  {
    var t := v + PAGE_SIZE - 1;
    assert t == t / PAGE_SIZE * PAGE_SIZE + t % PAGE_SIZE;
  }

  /** Rounding up is monotone. */
  lemma RoundUpPageMonotone(a: nat, b: nat)
    requires a <= b
    ensures RoundUpPage(a) <= RoundUpPage(b)
  {
    var ta := a + PAGE_SIZE - 1;
    var tb := b + PAGE_SIZE - 1;
    assert ta / PAGE_SIZE <= tb / PAGE_SIZE;
  }
}

=== FILE: sched.dfy ===
/** `__init_thread`: the join state and the scheduling decision made after
    clone. */
module Sched {
  import opened Wrappers
  import opened Effects
  import opened ThreadTypes

  const SCHED_NORMAL: int := 0
  const SCHED_RESET_ON_FORK: int := 0x4000_0000

  /** `(policy & SCHED_RESET_ON_FORK) != 0` on a 32-bit two's-complement int,
      so that the error return -1 has the bit set. */
  predicate HasResetOnFork(policy: int) {
    (policy % 0x1_0000_0000) / SCHED_RESET_ON_FORK % 2 == 1
  }

  /** The answers of sched_getscheduler (a policy, or -1 with `policyErrno`),
      sched_getparam (a priority, or None with `paramErrno`) and
      sched_setscheduler (success, or failure with `setErrno`). */
  datatype SchedReplies = SchedReplies(
    policy: int, policyErrno: int,
    param: Option<int>, paramErrno: int,
    setOk: bool, setErrno: int)

  /** Replies the kernel can give: an int policy, positive errno values. */
  predicate RepliesOk(rs: SchedReplies) {
    -0x8000_0000 <= rs.policy < 0x8000_0000
    && rs.policyErrno > 0 && rs.paramErrno > 0 && rs.setErrno > 0
  }

  /** The result code, the initial join state, and the calls made. */
  datatype InitResult = InitResult(code: int, joinState: JoinState, events: seq<Event>)

  /** `__init_thread(thread)` for a thread with attributes `attr` and kernel
      id `tid`; `lp64` selects the build. */
  function InitThread(attr: Attr, tid: int, lp64: bool, rs: SchedReplies): (r: InitResult)
    requires RepliesOk(rs)
    ensures r.joinState == (if attr.flags.detached then Detached else NotJoined)
    ensures r.code >= 0
    // Only scheduling calls are made.
    ensures forall i :: 0 <= i < |r.events| ==>
              r.events[i].SchedGetScheduler? || r.events[i].SchedGetParam? || r.events[i].SchedSetScheduler?
  {
    var joinState := if attr.flags.detached then Detached else NotJoined;
    if attr.flags.inheritSched then
      var needSet := HasResetOnFork(rs.policy);
      if !needSet then
        InitResult(0, joinState, [SchedGetScheduler])
      else if rs.policy == -1 then
        InitResult(rs.policyErrno, joinState, [SchedGetScheduler])
      else if rs.param.None? then
        InitResult(rs.paramErrno, joinState, [SchedGetScheduler, SchedGetParam])
      else
        SetScheduler(joinState, tid, rs.policy, rs.param.value, lp64, rs, [SchedGetScheduler, SchedGetParam])
    else
      // Before P there was no inherit/explicit choice; with neither flag set
      // the attribute's policy is applied unless it is the normal one.
      var needSet := attr.flags.explicitSched || attr.schedPolicy != SCHED_NORMAL;
      if needSet then
        SetScheduler(joinState, tid, attr.schedPolicy, attr.schedPriority, lp64, rs, [])
      else
        InitResult(0, joinState, [])
  }

  /** The sched_setscheduler call; its failure is reported only on LP64. */
  function SetScheduler(joinState: JoinState, tid: int, policy: int, priority: int, lp64: bool,
                        rs: SchedReplies, before: seq<Event>): InitResult
  {
    var evs := before + [SchedSetScheduler(tid, policy, priority, rs.setOk)];
    InitResult(if !rs.setOk && lp64 then rs.setErrno else 0, joinState, evs)
  }

  /** Whether a scheduling call is made: the truth table over the attribute
      flags and, when inheriting, the creator's current policy. */
  predicate MustSetScheduler(attr: Attr, rs: SchedReplies) {
    if attr.flags.inheritSched then HasResetOnFork(rs.policy) && rs.policy != -1 && rs.param.Some?
    else if attr.flags.explicitSched then true
    else attr.schedPolicy != SCHED_NORMAL
  }

  /** The index of the set call among the events, if any. */
  predicate SetCalled(evs: seq<Event>) {
    exists i :: 0 <= i < |evs| && evs[i].SchedSetScheduler?
  }

  /** The scheduling decision of `__init_thread`: a set call is made exactly
      when the truth table asks for it, with the inherited policy and priority
      or the attribute's; the current policy is queried only when inheriting;
      and the result is the errno of a failed query, of a failed set on LP64,
      or 0. */
  lemma InitThreadDecision(attr: Attr, tid: int, lp64: bool, rs: SchedReplies)
    requires RepliesOk(rs)
    ensures var r := InitThread(attr, tid, lp64, rs);
            && (SetCalled(r.events) <==> MustSetScheduler(attr, rs))
            && (SchedGetScheduler in r.events <==> attr.flags.inheritSched)
            && (SchedGetParam in r.events <==> attr.flags.inheritSched && HasResetOnFork(rs.policy) && rs.policy != -1)
            && (MustSetScheduler(attr, rs) ==>
                  r.events[|r.events| - 1] ==
                    if attr.flags.inheritSched
                    then SchedSetScheduler(tid, rs.policy, rs.param.value, rs.setOk)
                    else SchedSetScheduler(tid, attr.schedPolicy, attr.schedPriority, rs.setOk))
            && r.code == (
                 if attr.flags.inheritSched && HasResetOnFork(rs.policy) && rs.policy == -1 then rs.policyErrno
                 else if attr.flags.inheritSched && HasResetOnFork(rs.policy) && rs.param.None? then rs.paramErrno
                 else if MustSetScheduler(attr, rs) && !rs.setOk && lp64 then rs.setErrno
                 else 0)
  {
    var r := InitThread(attr, tid, lp64, rs);
    if MustSetScheduler(attr, rs) {
      assert r.events[|r.events| - 1].SchedSetScheduler?;
    } else {
      assert forall i :: 0 <= i < |r.events| ==> !r.events[i].SchedSetScheduler?;
    }
  }

  /** A failed sched_getscheduler returns -1, whose bit pattern carries
      SCHED_RESET_ON_FORK, so when inheriting a query failure always aborts
      with its errno. */
  lemma InheritQueryFailureFatal(attr: Attr, tid: int, lp64: bool, rs: SchedReplies)
    requires RepliesOk(rs)
    requires attr.flags.inheritSched && rs.policy == -1
    ensures InitThread(attr, tid, lp64, rs).code == rs.policyErrno
    ensures !SetCalled(InitThread(attr, tid, lp64, rs).events)
  {
    assert HasResetOnFork(-1);
    var r := InitThread(attr, tid, lp64, rs);
    assert r.events == [SchedGetScheduler];
  }

  /** The compatibility asymmetry: a failed set is an error on LP64 and
      ignored otherwise; nothing else differs between the two builds. */
  lemma SetFailureOnlyFatalOnLp64(attr: Attr, tid: int, rs: SchedReplies)
    requires RepliesOk(rs)
    requires MustSetScheduler(attr, rs) && !rs.setOk
    ensures InitThread(attr, tid, true, rs).code == rs.setErrno
    ensures InitThread(attr, tid, false, rs).code == 0
    ensures InitThread(attr, tid, true, rs).events == InitThread(attr, tid, false, rs).events
  {
  }
}

=== FILE: stacks.dfy ===
/** `__init_additional_stacks`, run by the new thread before its start
    routine: the alternate signal stack, and the offset arithmetic of the
    aarch64 shadow call stack. */
module AdditionalStacks {
  import opened Wrappers
  import opened Machine
  import opened Effects
  import opened ThreadTypes

  /** 16 KiB of usable signal stack plus one guard page, as
      pthread_internal.h defines it. */
  const SIGNAL_STACK_SIZE: nat := 16 * 1024 + PTHREAD_GUARD_SIZE
  /** Shadow call stack size and the guard region it is placed in. */
  const SCS_SIZE: nat := 8 * 1024
  const SCS_GUARD_REGION_SIZE: nat := 16 * 1024 * 1024

  /** The answers of mmap (None for MAP_FAILED) and of the guard mprotect. */
  datatype AltReplies = AltReplies(mmap: Option<nat>, guardOk: bool)

  /** Both the mmap and the guard mprotect succeeded. */
  predicate Installed(rs: AltReplies) {
    rs.mmap.Some? && rs.guardOk
  }

  /** `__init_alternate_signal_stack(thread)`. */
  function InitAlternateSignalStack(t: Thread, rs: AltReplies): (r: (Thread, seq<Event>))
    ensures r.0 == t.(altStack := r.0.altStack)
    // The thread records a signal stack only if one was installed.
    ensures r.0.altStack == (if Installed(rs) then rs.mmap.value else t.altStack)
    ensures Installed(rs) ==>
              SigAltStack(rs.mmap.value + PTHREAD_GUARD_SIZE, SIGNAL_STACK_SIZE - PTHREAD_GUARD_SIZE) in r.1
  {
    match rs.mmap
    case None => (t, [MmapFailed(SIGNAL_STACK_SIZE)])
    case Some(b) =>
      var reserve := Mmap(b, SIGNAL_STACK_SIZE, true);
      if !rs.guardOk then
        (t, [reserve, Mprotect(b, PTHREAD_GUARD_SIZE, false, false), Munmap(b, SIGNAL_STACK_SIZE)])
      else
        (t.(altStack := b),
         [reserve, Mprotect(b, PTHREAD_GUARD_SIZE, false, true),
          SigAltStack(b + PTHREAD_GUARD_SIZE, SIGNAL_STACK_SIZE - PTHREAD_GUARD_SIZE)])
  }

  /** A failed signal-stack setup leaves no mapping behind; a successful one
      maps exactly SIGNAL_STACK_SIZE bytes, writable above the guard page
      only. */
  lemma AltStackLedger(t: Thread, rs: AltReplies, l: Ledger)
    requires WellFormed(l)
    requires MapsFresh(l, InitAlternateSignalStack(t, rs).1)
    ensures var (t', evs) := InitAlternateSignalStack(t, rs);
            !Installed(rs) ==> Apply(l, evs) == l
    ensures var (t', evs) := InitAlternateSignalStack(t, rs);
            Installed(rs) ==>
              && Span(t'.altStack, SIGNAL_STACK_SIZE) !! l.mapped
              && Apply(l, evs).mapped == l.mapped + Span(t'.altStack, SIGNAL_STACK_SIZE)
              && Apply(l, evs).writable
                   == l.writable + Span(t'.altStack + PTHREAD_GUARD_SIZE, SIGNAL_STACK_SIZE - PTHREAD_GUARD_SIZE)
              && Apply(l, evs).registry == l.registry
  {
    var (t', evs) := InitAlternateSignalStack(t, rs);
    match rs.mmap
    case None =>
      assert Apply(l, evs) == Step(l, evs[0]);
    case Some(b) =>
      var whole := Span(b, SIGNAL_STACK_SIZE);
      assert evs[0] == Mmap(b, SIGNAL_STACK_SIZE, true);
      assert whole !! l.mapped;
      ApplyStep3(l, evs);
      if rs.guardOk {
        var usable := Span(b + PTHREAD_GUARD_SIZE, SIGNAL_STACK_SIZE - PTHREAD_GUARD_SIZE);
        assert (l.writable + whole) - Span(b, PTHREAD_GUARD_SIZE) == l.writable + usable;
      } else {
        assert (l.writable + whole) - whole == l.writable;
      }
  }

  /** `align_up(x, SCS_SIZE)`. */
  function AlignUpScs(x: nat): (r: nat)
    ensures r % SCS_SIZE == 0 && x <= r < x + SCS_SIZE
  {
    (x + SCS_SIZE - 1) / SCS_SIZE * SCS_SIZE
  }

  /** The shadow call stack's address inside its guard region `region`: at
      the region's first SCS_SIZE-aligned address for the init process,
      otherwise that many random SCS_SIZE steps further. */
  function ShadowCallStack(region: nat, pidIsInit: bool, draw: nat): nat {
    AlignUpScs(region) + (if pidIsInit then 0 else draw * SCS_SIZE)
  }

  /** The shadow call stack is SCS_SIZE aligned, lies inside its guard
      region, and leaves at least one unmapped page after it. */
  lemma ShadowCallStackPlacement(region: nat, pidIsInit: bool, draw: nat)
    requires region % PAGE_SIZE == 0
    requires UniformDraw(draw, SCS_GUARD_REGION_SIZE / SCS_SIZE - 1)
    ensures var scs := ShadowCallStack(region, pidIsInit, draw);
            && scs % SCS_SIZE == 0
            && region <= scs
            && scs + SCS_SIZE + PAGE_SIZE <= region + SCS_GUARD_REGION_SIZE
  {
    AlignUpScsNear(region);
    assert draw <= SCS_GUARD_REGION_SIZE / SCS_SIZE - 2;
  }

  /** Rounding a page multiple up to SCS_SIZE moves it by at most
      SCS_SIZE - PAGE_SIZE, since both ends are page multiples. */
  lemma AlignUpScsNear(region: nat)
    requires region % PAGE_SIZE == 0
    ensures AlignUpScs(region) - region <= SCS_SIZE - PAGE_SIZE
  {
    var a := AlignUpScs(region);
    assert (a - region) % PAGE_SIZE == 0 by {
      assert a == (region + SCS_SIZE - 1) / SCS_SIZE * SCS_SIZE;
      assert a % PAGE_SIZE == 0;
    }
  }
}

=== FILE: thread.dfy ===
/** The thread attributes and the bookkeeping structure
    (`pthread_attr_t`, `pthread_internal_t`) as far as creation and exit use
    them. */
module ThreadTypes {

  /** The attribute flag bits this core reads. */
  datatype AttrFlags = AttrFlags(detached: bool, inheritSched: bool, explicitSched: bool)

  /** `pthread_attr_t`; a null `stackBase` (0) asks for an allocated stack. */
  datatype Attr = Attr(
    flags: AttrFlags, stackBase: nat, stackSize: nat, guardSize: nat,
    schedPolicy: int, schedPriority: int)

  /** `ThreadJoinState`. */
  datatype JoinState = NotJoined | ExitedNotJoined | Joined | Detached

  /** What the new thread runs once released: the caller's routine, or the
      no-op `__do_nothing` substituted after a late failure. */
  datatype Routine = UserRoutine(fn: nat, arg: nat) | DoNothing

  /** `pthread_internal_t`: its own address, the attributes in force, the
      kernel id, the join state, the mapping to release, the start routine,
      the alternate signal stack (0 when none), the top of the cleanup-handler
      stack (0 when empty) and the exit value. */
  datatype Thread = Thread(
    addr: nat, attr: Attr, tid: int, joinState: JoinState,
    mmapBase: nat, mmapSize: nat, start: Routine,
    altStack: nat, cleanupTop: nat, returnValue: nat)
}

=== FILE: wrappers.dfy ===
/** Failure-compatible Option and Result types used throughout the model. */
module Wrappers {

  datatype Option<+T> = None | Some(value: T) {
    predicate IsFailure() { None? }

    function PropagateFailure<U>(): Option<U>
      requires None?
    {
      None
    }

    function Extract(): T
      requires Some?
    {
      value
    }
  }

  /** An operation's value, or the errno it reports. */
  datatype Result<+R> = Ok(value: R) | Err(errno: int)
}
